=== FILE: README.md ===
# Secure multi-tenant RAG pipeline: a Dafny model

This project models the core of a multi-tenant secure retrieval-augmented-generation API.

**Ingestion.** A tenant's document passes through four steps:
1. the PII scrubber redacts it;
2. it is sealed under a fresh data key from the tenant's KMS master key (envelope encryption);
3. the ciphertext is stored in an S3 bucket under the tenant's folder;
4. the redacted text is indexed in the tenant's own vector collection.

The index entry keeps the object's URI and the wrapped data key in hexadecimal.

**Querying.** A query also runs in steps:
1. its embedding is logged with a per-tenant anomaly gate, which then gives its advisory verdict;
2. the tenant's collection is searched;
3. every hit is fetched, unwrapped and decrypted;
4. the decrypted texts, joined by spaces, become the context of the generated answer.

Any exception on either path answers HTTP 500.

## Modules

One module per source file:

- `Storage`: the bucket as a map from key to bytes.
- `Kms`: master keys tagged with their tenant, aliases, and issued data-key blobs.
- `Encryption`: Fernet tokens, handled symbolically.
- `Vectors`: the collections as a map from name to points.
- `Anomaly`: the histories and the trained forests.
- `Pii`: the span splicer.
- `Llm`: the empty-context guard and the prompt.
- `Endpoints`: the two pipelines as methods of a `Pipeline` class that owns one instance of each service.

Three helper modules hold shared definitions:

- `Common`: `Result`, bytes, and Python's `startswith`, `in`, `replace` and `join`.
- `Sorting`: Python's stable descending `list.sort` and list filtering.
- `Base16`: `bytes.hex` and `bytes.fromhex`.

### Inputs the model takes as parameters

- **Machine-learned models**: the BERT NER pipeline, the sentence-transformer, cosine similarity, IsolationForest fitting and prediction, and FLAN-T5. Each is a function-valued field fixed at construction.
- **Random values**: the uuid4 of the object key, the key service's random data key, and the Fernet token. These are the `Entropy` parameter.
- **Key-service answers to the creation calls**: the `CreateOutcome` parameter.

### Main results

- **Envelope round trip.** Ingestion followed by retrieval gives back the redacted text whenever the object key holds no "s3://bucket/": `StoreDocument` and `IngestDocument` then ensure `ResolvePayload(payload) == Ok(scrubbed)`. Retrieval uses the code's own `replace` strip, and `FileKeyHoldsNoPrefix` shows the condition holds for every tenant id and uuid without ':'.
- **Pipeline invariant.** `Pipeline.Consistent` states that every indexed point of every tenant resolves under a key tagged with that tenant. The invariant is set up by the constructor and kept by every query. Ingestion keeps it when its random values are fresh and its object key holds no "s3://bucket/".
- **Queries succeed.** A query on a consistent pipeline always succeeds.
- **Advisory anomaly flag.** The flag never changes the retrieved documents.
- **Redaction matches a reference.** For well-formed NER output, the descending-order slice splicing of the scrubber equals a direct reference definition of redaction.

## Model

| member | source | states |
|---|---|---|
| `Common.ReplaceAll` | app/services/vector_service.py:80 | Python `str.replace` with an empty replacement never lengthens the string, and leaves it unchanged when the pattern does not occur |
| `Common.StripRoundTrip` | app/api/endpoints.py:115 | deleting every occurrence of a prefix from prefix + s gives back s exactly when s holds no occurrence of it |
| `Common.Join` | app/api/endpoints.py:129 | every part fits in the joined string, which starts with the first part, and with two or more parts it is at least as long as the first part and one separator |
| `Common.JoinEmpty` | app/api/endpoints.py:129 | a join with a non-empty separator is empty iff there are no parts or one empty part |
| `Sorting.SortDesc` | app/services/pii_service.py:27 | the sort by descending key is a permutation of its input, of equal length, and sorted |
| `Sorting.SortDescStable` | app/services/pii_service.py:27 | with all keys equal the sort keeps the input order (Python's sort is stable) |
| `Sorting.Filter` | app/services/pii_service.py:34 | the filtered list holds exactly the elements of the input that satisfy the predicate |
| `Sorting.FilterCount` | app/services/pii_service.py:34 | the filtered list holds every copy of each selected element and no copy of any other |
| `Sorting.FilterAppend` | app/services/pii_service.py:34 | filtering a concatenation is the concatenation of the filtered parts |
| `Sorting.SortDescKeepsTies` | app/services/pii_service.py:27 | the sort is stable: for every key value, the elements with that key come out in their input order |
| `Sorting.FilterSortDesc` | app/services/pii_service.py:27-34 | sorting and then skipping the non-qualifying entities equals skipping first and sorting after |
| `Sorting.SortPairwise` | app/services/pii_service.py:27 | sorting keeps every symmetric pairwise relation of the entities (such as disjointness) |
| `Base16.Hex` | app/services/vector_service.py:40 | `bytes.hex` yields two characters per byte |
| `Base16.FromHexHex` | app/api/endpoints.py:119 | `bytes.fromhex(b.hex()) == b` for every byte string |
| `Base16.HexIsLowercase` | app/services/vector_service.py:40 | `bytes.hex` yields lowercase hexadecimal digits only |
| `Base16.FromHex` | app/api/endpoints.py:119 | `bytes.fromhex` fails only with the non-hexadecimal error, and a decoded string has at most half as many bytes as the text has characters |
| `Base16.FromHexIgnoresCase` | app/api/endpoints.py:119 | `bytes.fromhex` reads upper- and lower-case digits alike |
| `Base16.HexFromHex` | app/api/endpoints.py:119 | every even-length lowercase hexadecimal string decodes, and re-encoding gives it back |
| `Storage.S3Uri` | app/services/storage_service.py:25 | the URI of an object starts with "s3://" and is six characters longer than the bucket name and the key together |
| `Storage.S3UriParts` | app/services/storage_service.py:25 | the URI is "s3://" + bucket + "/" followed by the key, and the key is what follows that prefix |
| `Storage.S3UriInjective` | app/services/storage_service.py:25 | two keys of one bucket never share a URI |
| `Storage.StorageService.constructor` | app/services/storage_service.py:6-14 | the bucket is fixed at construction and the store starts empty |
| `Storage.StorageService.UploadFile` | app/services/storage_service.py:16-25 | the object is put under its key and no other key changes; the result is exactly "s3://bucket/key"; a download of the key then yields the body |
| `Storage.StorageService.DownloadFile` | app/services/storage_service.py:27-32 | the stored body of an uploaded key, and NoSuchKey for any other key |
| `Kms.AliasName` | app/services/kms_service.py:49-50 | a tenant's alias is "alias/tenant_" followed by the tenant id, which can be read back from it |
| `Kms.AliasNameInjective` | app/services/kms_service.py:19 | two tenants never share the alias "alias/tenant_" + id |
| `Kms.KmsService.CreateKeyForTenant` | app/services/kms_service.py:15-47 | when the alias is bound, the probe succeeds: no key is created and the alias is returned. Otherwise exactly one key tagged with the tenant is created, and the alias is bound to it; the raw key id is returned. A rejected creation call is raised again. After a normal return the alias names a key of that tenant, and issued data keys and existing keys never change |
| `Kms.KmsService.GenerateDataKey` | app/services/kms_service.py:52-65 | provisioning always comes first. On success the pair is the one response's (blob, plaintext), issued under the key the alias names, which is tagged with the tenant. On failure nothing is issued. The keys and aliases change exactly as provisioning changed them: not at all when the alias was bound or key creation was rejected; otherwise by one new key of the tenant and, on success, the alias bound to it |
| `Kms.KmsService.DecryptDataKey` | app/services/kms_service.py:67-74 | a blob unwraps iff the service issued it, to the plaintext it was issued with |
| `Encryption.EncryptionService.EncryptText` | app/services/encryption_service.py:9-28 | the text is sealed under the plaintext of a data key of this tenant; the envelope is (token, blob) and decrypts back to the text. On success exactly one token and one blob are added, the blob wrapped under the key the tenant's alias names. A provisioning failure mints and issues nothing. Keys and aliases change only as provisioning changed them |
| `Encryption.EncryptionService.DecryptText` | app/services/encryption_service.py:30-41 | decryption succeeds iff the blob was issued, the token was minted, and the token was sealed under that blob's plaintext key; it then yields the sealed text |
| `Vectors.CollectionName` | app/services/vector_service.py:18 | a tenant's collection name starts with "tenant_" and the tenant id follows it |
| `Vectors.CollectionNameInjective` | app/services/vector_service.py:18 | two tenants never share the collection "tenant_" + id |
| `Vectors.WithName` | app/services/vector_service.py:19-26 | after check-then-create the collection's name is listed |
| `Vectors.TopK` | app/services/vector_service.py:64-68 | the search returns min(limit, collection size) hits, each a point of the tenant's collection with its own similarity score, best first |
| `Vectors.TopKDistinct` | app/services/vector_service.py:64-68 | the hits are a sub-multiset of the scored collection: no point is returned more often than the collection holds it, so distinct points stay distinct |
| `Vectors.TopKBest` | app/services/vector_service.py:64-68 | no point left out of the results scores higher than a returned one |
| `Vectors.TenantIdAsWritten` | app/services/vector_service.py:80 | the code's `replace` never lengthens a collection name, leaves one without "tenant_" as it is, and makes one that holds "tenant_" strictly shorter |
| `Vectors.TenantsAsWritten` | app/services/vector_service.py:71-81 | the code's listing has at most one id per collection |
| `Vectors.TenantIdRoundTrip` | app/services/vector_service.py:79-80 | stripping only the leading "tenant_" from a tenant's collection name gives back the tenant id |
| `Vectors.TenantIdAsWrittenRoundTrip` | app/services/vector_service.py:80 | the code's `replace` gives back the tenant id iff the id holds no "tenant_" |
| `Vectors.TenantIdAsWrittenMangles` | app/services/vector_service.py:80 | the tenant "my_tenant_1" is listed as "my_1" |
| `Vectors.TenantsOfCollections` | app/services/vector_service.py:71-81 | listing the collections of a sequence of tenants gives back exactly those tenants, in order |
| `Vectors.TenantsAsWrittenAgree` | app/services/vector_service.py:77-81 | the code's listing gives back the tenants iff no tenant id holds "tenant_" |
| `Vectors.TenantListed` | app/services/vector_service.py:77-81 | every tenant whose collection exists, and whose id holds no "tenant_", is listed under its own id by the code's listing |
| `Vectors.VectorService.constructor` | app/services/vector_service.py:8-12 | the index starts with no collections and the given embedding model and similarity |
| `Vectors.VectorService.EnsureCollection` | app/services/vector_service.py:14-26 | the tenant's collection is created empty only when absent, and every other collection is unchanged, so a second call changes nothing |
| `Vectors.VectorService.UpsertVector` | app/services/vector_service.py:31-55 | exactly one point, with an id no stored point has, is appended to the tenant's own collection. It carries the text's embedding and the payload {s3_uri, hex of the wrapped key}. Every other collection is unchanged |
| `Vectors.VectorService.Search` | app/services/vector_service.py:57-69 | the tenant's collection is ensured and only that collection is ranked; an unseen tenant gets an empty collection and no hits |
| `Vectors.VectorService.ListTenants` | app/services/vector_service.py:71-81 | the loop returns one id per "tenant_" collection, in collection order, each the name with every "tenant_" deleted |
| `Anomaly.AnomalyDetector.constructor` | app/services/anomaly_service.py:9-15 | no history and no models at first |
| `Anomaly.AnomalyDetector.LogQuery` | app/services/anomaly_service.py:17-27 | exactly one embedding is appended to this tenant's history and every other history is unchanged. The tenant's model is retrained on the whole history exactly when it holds at least 5 samples and fitting succeeds; the verdict then follows the new model |
| `Anomaly.AnomalyDetector.TrainModel` | app/services/anomaly_service.py:29-39 | a successful fit on the full history replaces only this tenant's model; a failed fit is swallowed and leaves the models unchanged |
| `Anomaly.AnomalyDetector.IsAnomalous` | app/services/anomaly_service.py:41-58 | true iff the tenant has a model that predicts -1; always false with fewer than 5 logged queries (fail open); reads the state without changing it |
| `Pii.SliceAssign` | app/services/pii_service.py:40 | Python slice assignment on in-bounds indices is prefix + replacement + suffix |
| `Pii.Scrubbed` | app/services/pii_service.py:16-42 | the scrubbed text is empty exactly when the input is, since a placeholder is never empty |
| `Pii.SpliceAllNonEmpty` | app/services/pii_service.py:37-40 | splicing placeholders into a non-empty text never empties it |
| `Pii.Scrub` | app/services/pii_service.py:16-42 | the empty text gives the empty text; the loop over the entities, sorted by descending start, computes `Scrubbed` |
| `Pii.SpliceAllRedactable` | app/services/pii_service.py:32-40 | splicing ignores every entity outside PER, ORG and LOC |
| `Pii.OtherGroupsIgnored` | app/services/pii_service.py:34 | the scrubbed text is the same with or without the entities of other groups |
| `Pii.NothingToRedact` | app/services/pii_service.py:32-42 | with no PER, ORG or LOC entity the output equals the input |
| `Pii.SpliceAllSuffix` | app/services/pii_service.py:40 | splices at descending in-bounds spans never touch text appended after them |
| `Pii.SpliceAllIsRedacted` | app/services/pii_service.py:27-40 | splicing descending, disjoint spans one by one equals replacing every span at its original indices |
| `Pii.SortedApartDescending` | app/services/pii_service.py:27 | disjoint in-bounds spans sorted by descending start form a descending chain |
| `Pii.VisitedSpansDescending` | app/services/pii_service.py:27-34 | for well-formed NER output, the redactable spans in visiting order are descending and disjoint |
| `Pii.ScrubbedIsRedacted` | app/services/pii_service.py:16-42 | for a non-empty text with disjoint in-bounds spans, the scrubber's output is the reference redaction: each span [start, end) replaced by "<" + group + ">" at its original position |
| `Pii.RedactedLength` | app/services/pii_service.py:37-40 | the output length is the input length, minus the span lengths, plus the placeholder lengths |
| `Pii.RedactedKeepsEnds` | app/services/pii_service.py:30-42 | the text before the first span and after the last span is kept unchanged |
| `Llm.Prompt` | app/services/llm_service.py:25 | the prompt starts with "question: " and is exactly as long as the two tags, the question and the context together |
| `Llm.PromptParts` | app/services/llm_service.py:25 | the prompt is "question: ", then the question, then " context: ", then the context |
| `Llm.PromptInjective` | app/services/llm_service.py:25 | two questions over one context, or two contexts for one question, give two different prompts |
| `Llm.GenerateAnswer` | app/services/llm_service.py:17-32 | an empty context gives the fixed sentence without calling the model. Otherwise the first generated text is returned. A failure or an empty output gives "Error generating answer.". No exception escapes |
| `Endpoints.FileKey` | app/api/endpoints.py:58 | every object key lies in the folder tenant + "/" |
| `Endpoints.FileKeyNamesTenant` | app/api/endpoints.py:58 | two ingestions whose uuids hold no "/" share an object key only when they name the same tenant and the same uuid |
| `Endpoints.FileKeyHoldsNoPrefix` | app/api/endpoints.py:115 | for a tenant id and a uuid without ':', the code's strip gives back the object key from its URI |
| `Endpoints.KeyOfUriAsWritten` | app/api/endpoints.py:115 | the code's strip never lengthens a URI, leaves one without "s3://bucket/" as it is, and makes one that holds it strictly shorter |
| `Endpoints.KeyOfUriRoundTrip` | app/api/endpoints.py:115 | stripping the leading "s3://bucket/" gives back every key from its URI |
| `Endpoints.KeyOfUriAsWrittenRoundTrip` | app/api/endpoints.py:115 | the code's `replace` gives back the key iff the key holds no "s3://bucket/" |
| `Endpoints.KeyOfUriAsWrittenLosesKey` | app/api/endpoints.py:115 | for the tenant "s3://bucket", the code's strip turns the document's key into "<uuid>.enc", which is a different key |
| `Endpoints.Context` | app/api/endpoints.py:129 | every retrieved text fits in the context, and the context starts with the first hit's text |
| `Endpoints.Contents` | app/api/endpoints.py:129 | one text per document, in document order |
| `Endpoints.ContextEmpty` | app/api/endpoints.py:129-130 | the context is empty iff there are no documents or one empty document, so zero hits give the canned answer |
| `Endpoints.Pipeline.constructor` | app/api/endpoints.py:13-19 | every service starts empty, the bucket is the configured one, and the pipeline starts consistent |
| `Endpoints.Pipeline.ResolvePayload` | app/api/endpoints.py:109-120 | a hit resolves iff the object at the key the code's strip takes from its URI exists, its hex key decodes, the key service issued that blob, and the stored token was sealed under the blob's plaintext; the result is the sealed text. A missing object raises NoSuchKey for that key, and bad hex raises the non-hexadecimal error |
| `Endpoints.Pipeline.ResolveAll` | app/api/endpoints.py:107-126 | the loop yields one document per hit, in hit order, each with that hit's score and URI, iff every hit resolves. Otherwise the request fails with the exception of the first hit that fails |
| `Endpoints.Pipeline.ResolveHits` | app/api/endpoints.py:107-126 | the loop of fetch, hex decoding and decryption computes `ResolveAll` |
| `Endpoints.Pipeline.FirstFailure` | app/api/endpoints.py:107-126 | a hit that fails after every earlier hit resolved aborts the whole loop with its own exception |
| `Endpoints.Pipeline.FailurePersists` | app/api/endpoints.py:107-126 | once a hit fails, no later hit is looked at |
| `Endpoints.Pipeline.SealDocument` | app/api/endpoints.py:49-55 | the scrubbed text, not the raw text, is encrypted. On success exactly one token, sealing the scrubbed text under the drawn data key, and one blob, wrapped under the tenant's aliased key, are added, and the envelope decrypts back to the scrubbed text. A key-service failure mints and issues nothing. Keys and aliases change only as provisioning changed them. Consistency is kept |
| `Endpoints.Pipeline.StoreDocument` | app/api/endpoints.py:57-69 | the ciphertext goes under tenant/uuid.enc, and the index gets the scrubbed text's embedding with the URI the upload returned and the hex of the wrapped key, in the tenant's own collection. When the key holds no "s3://bucket/", the stored point resolves back to the scrubbed text and consistency is kept |
| `Endpoints.Pipeline.IngestDocument` | app/api/endpoints.py:39-78 | ingestion succeeds iff the key service provisions. The response carries the upload's URI and the scrubbed preview. On success the store gains exactly the one object, the cipher exactly the one token and the key service exactly the one blob, and the index gains the one point. Keys and aliases change only as provisioning changed them. A failure answers 500 with the store, tokens, index and issued keys untouched. When the object key holds no "s3://bucket/", the new point resolves back to the scrubbed text and consistency is kept |
| `Endpoints.Pipeline.CheckAnomaly` | app/api/endpoints.py:90-102 | the embedding is logged before the verdict is read. The tenant's model is refitted on the whole history, this query included, exactly when that history holds at least 5 samples and fitting succeeds; the verdict is then that forest's prediction for the query, and with fewer than 5 samples it is false |
| `Endpoints.Pipeline.RetrieveDocuments` | app/api/endpoints.py:104-126 | the documents are `ResolveAll` of the tenant's top 3 hits; on a consistent pipeline every hit resolves |
| `Endpoints.Pipeline.QueryDocument` | app/api/endpoints.py:80-139 | the history gains the query, the tenant's model is refitted on that history when it holds at least 5 samples and fitting succeeds, and the flag is then that forest's prediction for the query. Only the tenant's collection is ensured. The response is 500 with the first failure's exception iff a hit fails; otherwise it carries the documents, the answer from their joined contents, and the verdict. The flag never changes the documents. A consistent pipeline always answers successfully, and a fresh tenant gets no documents, the canned answer and no flag |
| `Endpoints.Pipeline.HitsResolve` | app/api/endpoints.py:107-126 | hits drawn from a tenant's collection of a consistent pipeline all resolve |
| `Endpoints.Pipeline.GetTenants` | app/api/endpoints.py:29-37 | the endpoint returns the code's listing of the collections' tenant ids |
| `Endpoints.IngestedTenantListed` | app/api/endpoints.py:29-37 | after a tenant's first ingestion, a tenant whose id holds no "tenant_" is listed |

## Left out

- **Machine-learned models.** The BERT NER model, the sentence-transformer, FLAN-T5 and IsolationForest are uninterpreted function parameters. Their floating-point internals are not modelled.
- **Fitted forests.** A fitted forest is identified by its training samples, because `random_state=42` makes fitting a function of the data.
- Vectors.TopK: models Qdrant's HNSW search as an exact exhaustive ranking, with ties kept in insertion order; approximate-search misses are not modelled.
- **Collection configuration.** The collection's vector size (384) and its COSINE distance setting are not modelled.
- **Collection-name rules.** The index accepts every collection name; whatever characters the vector store refuses in a name are not modelled. The second Findings row depends on this: it needs the collection "tenant_s3://secure-rag-data" to be created, which happens after the upload (app/api/endpoints.py:58-69). If the store refused that name, the ingestion would answer 500 and no point would carry the URI.
- **Network failures.** Failures of `put_object`, `upsert`, `get_collections` and the KMS probe are not modelled. Only these failures are:
  - a missing object;
  - a malformed hexadecimal string;
  - an unknown blob;
  - a token that does not open;
  - rejected key or alias creation.
- **Random values.** uuid4 values, the key service's random data keys and Fernet's random IVs are parameters.
  - Point ids and master-key ids are natural numbers from counters, not uuid strings.
- Endpoints.Pipeline.IngestDocument: keeps consistency only when its random values collide with nothing stored (`FreshEntropy`); with a colliding uuid the upload would overwrite another document. Like `StoreDocument`, it promises the round trip only for an object key without "s3://bucket/".
- Endpoints.Pipeline.StoreDocument: promises the round trip and kept consistency only for an object key without "s3://bucket/"; for any other key the code's strip asks for a different key (see Findings).
- Endpoints.Pipeline.SealDocument: states that consistency is kept only for fresh random values, the one case ingestion relies on.
- **Fernet, AES and the base64 formatting of the key.** These are symbolic. A token remembers the data key and text it sealed. UTF-8 encoding and decoding of the text are identities.
- **The discarded probe.** The data key that the probe in `create_key_for_tenant` requests and throws away is not recorded among the issued blobs.
- **AWS naming rules.** The key service's naming rules for aliases are not checked.
- **The sort's effect on the caller's list.** The in-place `results.sort` is modelled on values by `Sorting.SortDesc`. The NER result list is a fresh value, so no caller sees the mutation.
- **Listing order.** New collection names are appended to the end of the index's list, so `ListTenants` and `GetTenants` list tenants in creation order. The code promises only the order the vector store's `get_collections()` reports, and no property here depends on that order.
- **get_tenants' error path.** The `try` around `list_tenants` in `get_tenants` answers 500 only on a network error. Listing cannot fail in the model.
- **Other files.** Logging, `print`, concurrency (the code has no locks), FastAPI routing, request models, the Streamlit dashboard and configuration are not part of this model. The one exception is the bucket name, `Storage.DefaultBucket`.
- **Skipping undecryptable hits.** A query does not skip a hit that fails to decrypt and go on with the rest. The code aborts the whole query with status 500 (app/api/endpoints.py:138-139), and the model does the same.
- **A tenant check on unwrapping.** Unwrapping a blob of another tenant does not fail. The code's `decrypt_data_key` makes no tenant check (app/services/kms_service.py:67-74), and the model makes none either.

## Findings

| source | as written | input that shows it | evidently intended | confidence | as-written member | corrected member |
|---|---|---|---|---|---|---|
| app/services/vector_service.py:80 | `replace` deletes every "tenant_" in the collection name, not just the leading one | tenant id "my_tenant_1" (collection "tenant_my_tenant_1") is listed as "my_1" | strip only the leading "tenant_", so every tenant id is listed as it was ingested | not executed | `Vectors.TenantIdAsWrittenMangles` | `Vectors.TenantsOfCollections` |
| app/api/endpoints.py:115 | `replace` deletes every "s3://bucket/" in the URI, including one inside the object key | tenant id "s3://secure-rag-data": the document is stored under "s3://secure-rag-data/uuid.enc", and retrieval asks the bucket for "uuid.enc", gets NoSuchKey and answers 500 | strip only the leading "s3://bucket/", so every stored key is recovered from its URI | not executed | `Endpoints.KeyOfUriAsWrittenLosesKey` | `Endpoints.KeyOfUriAsWritten` | app/api/endpoints.py:115 | the code's strip never lengthens a URI, leaves one without "s3://bucket/" as it is, and makes one that holds it strictly shorter |
| `Endpoints.KeyOfUriRoundTrip` |

In both rows the operations model the code as written: `Vectors.VectorService.ListTenants` uses `TenantIdAsWritten`, and `Endpoints.Pipeline.ResolvePayload` uses `KeyOfUriAsWritten`. The corrected strips, `TenantIdOf` and `KeyOfUri`, carry the intended round trips.

=== FILE: anomaly_service.dfy ===
/** The per-tenant anomaly gate: an append-only history of query embeddings per tenant and, once
    a tenant has logged enough queries, an isolation forest trained on that whole history. */
module Anomaly {
  import opened Common

  /** The fewest logged queries a tenant needs before a model is trained for it. */
  const MinSamplesToTrain: nat := 5

  /** The prediction an isolation forest gives an outlier (an inlier gets 1). */
  const Outlier: int := -1

  /** A fitted isolation forest. With its random state fixed, fitting is a function of the
      training data alone, so the samples it was fitted on identify the model. */
  datatype Forest = Forest(samples: seq<Embedding>)

  predicate IsPrefix(a: seq<Embedding>, b: seq<Embedding>) {
    |a| <= |b| && b[..|a|] == a
  }

  class AnomalyDetector {
    const fits: seq<Embedding> -> bool           // whether fitting on this data succeeds
    const predict: (Forest, Embedding) -> int    // the forest's prediction for one sample
    var history: map<string, seq<Embedding>>
    var models: map<string, Forest>

    /** A tenant's history; a tenant never seen has an empty one, as with a defaultdict. */
    function History(tenant: string): seq<Embedding>
      reads this
    {
      if tenant in history then history[tenant] else []
    }

    /** Every model was trained on an earlier state of its own tenant's history, one that already
        held at least the minimum number of samples. */
    ghost predicate Valid()
      reads this
    {
      forall t :: t in models ==>
        MinSamplesToTrain <= |models[t].samples| && IsPrefix(models[t].samples, History(t))
    }

    constructor (fits: seq<Embedding> -> bool, predict: (Forest, Embedding) -> int)
      ensures Valid()
      ensures this.fits == fits && this.predict == predict
      ensures history == map[] && models == map[]
    {
      this.fits := fits;
      this.predict := predict;
      history, models := map[], map[];
    }

    /** Appends the embedding to the tenant's history and, once that history holds at least
        `MinSamplesToTrain` samples, retrains the tenant's model on all of it. */
    method LogQuery(tenant: string, embedding: Embedding)
      requires Valid()
      modifies this
      ensures Valid()
      ensures history == old(history)[tenant := old(History(tenant)) + [embedding]]
      ensures |History(tenant)| >= MinSamplesToTrain && fits(History(tenant)) ==>
        models == old(models)[tenant := Forest(History(tenant))]
      ensures !(|History(tenant)| >= MinSamplesToTrain && fits(History(tenant))) ==> models == old(models)
      ensures |History(tenant)| >= MinSamplesToTrain && fits(History(tenant)) ==>
        (IsAnomalous(tenant, embedding) <==> predict(Forest(History(tenant)), embedding) == Outlier)
    {
      history := history[tenant := History(tenant) + [embedding]];
      if |history[tenant]| >= MinSamplesToTrain {
        TrainModel(tenant);
      }
    }

    /** Fits a forest on the tenant's whole history and stores it as the tenant's model; a
        failed fit is swallowed and leaves every model as it was. */
    method TrainModel(tenant: string)
      requires Valid()
      requires |History(tenant)| >= MinSamplesToTrain
      modifies this`models
      ensures Valid()
      ensures fits(History(tenant)) ==> models == old(models)[tenant := Forest(History(tenant))]
      ensures !fits(History(tenant)) ==> models == old(models)
    {
      var data := History(tenant);
      if fits(data) {
        models := models[tenant := Forest(data)];
      }
    }

    /** The verdict for one query: false while the tenant has no model (fail open), otherwise
        whether the model predicts an outlier. */
    function IsAnomalous(tenant: string, embedding: Embedding): (r: bool)
      reads this
      requires Valid()
      ensures |History(tenant)| < MinSamplesToTrain ==> !r
      ensures r <==> tenant in models && predict(models[tenant], embedding) == Outlier
    {
      if tenant !in models then false
      else predict(models[tenant], embedding) == Outlier
    }
  }
}

=== FILE: base16.dfy ===
/** The lowercase Base16 encoding of section 8 of RFC 4648 as Python produces it with
    `bytes.hex()`, and its decoder `bytes.fromhex`, which also accepts upper-case digits and
    ASCII whitespace between the two-digit groups. The vector index stores each wrapped data key
    in this form and the query path decodes it again. */
module Base16 {
  import opened Common

  const Digits: string := "0123456789abcdef"

  /** The two lowercase digits of one byte, high nibble first. */
  function ByteToHex(b: byte): (s: string)
    ensures |s| == 2
  {
    [Digits[b as int / 16], Digits[b as int % 16]]
  }

  /** Python `bytes.hex()`. */
  function Hex(bs: bytes): (s: string)
    ensures |s| == 2 * |bs|
    decreases |bs|
  {
    if |bs| == 0 then "" else ByteToHex(bs[0]) + Hex(bs[1..])
  }

  /** The value of a hexadecimal digit of either case, as CPython's digit table gives it. */
  function DigitValue(c: char): (v: Option<nat>)
    ensures v.Some? ==> v.value < 16
  {
    if '0' <= c <= '9' then Some(c as nat - '0' as nat)
    else if 'a' <= c <= 'f' then Some(c as nat - 'a' as nat + 10)
    else if 'A' <= c <= 'F' then Some(c as nat - 'A' as nat + 10)
    else None
  }

  /** ASCII whitespace as CPython's `Py_ISSPACE` classifies it. */
  predicate IsSpace(c: char) {
    c == ' ' || c == '\t' || c == '\n' || c == '\r' || c as int == 0x0B || c as int == 0x0C
  }

  /** Python `bytes.fromhex(s)`: whitespace is skipped before each two-digit group; a group that
      is cut short or holds a non-digit raises ValueError. */
  function FromHex(s: string): (r: Result<bytes>)
    ensures r.Err? ==> r.error == NonHexadecimal
    ensures r.Ok? ==> 2 * |r.value| <= |s|
    decreases |s|
  {
    if |s| == 0 then Ok([])
    else if IsSpace(s[0]) then FromHex(s[1..])
    else if |s| < 2 then Err(NonHexadecimal)
    else match (DigitValue(s[0]), DigitValue(s[1]))
      case (Some(hi), Some(lo)) =>
        (match FromHex(s[2..])
         case Ok(rest) => Ok([(hi * 16 + lo) as byte] + rest)
         case Err(e) => Err(e))
      case _ => Err(NonHexadecimal)
  }

  /** An upper-case hexadecimal digit in lower case; every other character as it is. */
  function LowerDigit(c: char): char {
    if 'A' <= c <= 'F' then (c as int - 'A' as int + 'a' as int) as char else c
  }

  function Lowered(s: string): (r: string)
    ensures |r| == |s|
    ensures forall k :: 0 <= k < |s| ==> r[k] == LowerDigit(s[k])
  {
    seq(|s|, k requires 0 <= k < |s| => LowerDigit(s[k]))
  }

  /** Lowering a character changes neither whether it is whitespace nor its digit value. */
  lemma LowerDigitAgrees(c: char)
    ensures IsSpace(LowerDigit(c)) == IsSpace(c) && DigitValue(LowerDigit(c)) == DigitValue(c)
  {
  }

  /** `bytes.fromhex` reads upper- and lower-case digits alike: lowering every digit changes
      neither the bytes nor the error. */
  lemma {:induction false} FromHexIgnoresCase(s: string)
    ensures FromHex(Lowered(s)) == FromHex(s)
    decreases |s|
  {
    if |s| > 0 {
      var t := Lowered(s);
      LowerDigitAgrees(s[0]);
      if |s| >= 2 {
        LowerDigitAgrees(s[1]);
      }
      assert t[1..] == Lowered(s[1..]);
      FromHexIgnoresCase(s[1..]);
      if |s| >= 2 {
        assert t[2..] == Lowered(s[2..]);
        FromHexIgnoresCase(s[2..]);
      }
    }
  }

  predicate IsLowerHexDigit(c: char) {
    '0' <= c <= '9' || 'a' <= c <= 'f'
  }

  lemma DigitsRoundTrip(d: nat)
    requires d < 16
    ensures IsLowerHexDigit(Digits[d]) && !IsSpace(Digits[d]) && DigitValue(Digits[d]) == Some(d)
  {
  }

  lemma LowerDigitRoundTrip(c: char)
    requires IsLowerHexDigit(c)
    ensures !IsSpace(c) && DigitValue(c).Some? && Digits[DigitValue(c).value] == c
  {
    var d := DigitValue(c).value;
    assert Digits[d] as int == if d < 10 then '0' as int + d else 'a' as int + d - 10 by {
      assert Digits == ['0', '1', '2', '3', '4', '5', '6', '7', '8', '9', 'a', 'b', 'c', 'd', 'e', 'f'];
    }
  }

  /** Decoding the encoding gives back every byte string unchanged. */
  lemma {:induction false} FromHexHex(bs: bytes)
    ensures FromHex(Hex(bs)) == Ok(bs)
    decreases |bs|
  {
    if |bs| > 0 {
      var b := bs[0];
      var hi, lo := b as int / 16, b as int % 16;
      DigitsRoundTrip(hi);
      DigitsRoundTrip(lo);
      var s := Hex(bs);
      assert s == ByteToHex(b) + Hex(bs[1..]);
      assert s[0] == Digits[hi] && s[1] == Digits[lo];
      assert s[2..] == Hex(bs[1..]);
      FromHexHex(bs[1..]);
      FromHexPair(s, b);
      assert bs == [b] + bs[1..];
    }
  }

  /** Every string `Hex` produces is canonical: lowercase digits only, in two-digit groups. */
  lemma {:induction false} HexIsLowercase(bs: bytes)
    ensures forall k :: 0 <= k < |Hex(bs)| ==> IsLowerHexDigit(Hex(bs)[k])
    decreases |bs|
  {
    if |bs| > 0 {
      var b := bs[0] as int;
      DigitsRoundTrip(b / 16);
      DigitsRoundTrip(b % 16);
      HexIsLowercase(bs[1..]);
    }
  }

  /** A byte built from two nibbles splits back into them. */
  lemma NibblesOf(hi: nat, lo: nat)
    requires hi < 16 && lo < 16
    ensures hi * 16 + lo < 256
    ensures (hi * 16 + lo) / 16 == hi && (hi * 16 + lo) % 16 == lo
  {
  }

  /** A leading pair of lowercase digits decodes to one byte whose encoding is that pair. */
  lemma PairRoundTrip(c0: char, c1: char) returns (b: byte)
    requires IsLowerHexDigit(c0) && IsLowerHexDigit(c1)
    ensures !IsSpace(c0)
    ensures DigitValue(c0).Some? && DigitValue(c1).Some?
    ensures b as int == DigitValue(c0).value * 16 + DigitValue(c1).value
    ensures ByteToHex(b) == [c0, c1]
  {
    LowerDigitRoundTrip(c0);
    LowerDigitRoundTrip(c1);
    var hi := DigitValue(c0).value;
    var lo := DigitValue(c1).value;
    NibblesOf(hi, lo);
    b := (hi * 16 + lo) as byte;
    ByteToHexOf(b, hi, lo);
  }

  /** The digits of a byte are the digits of its two nibbles. */
  lemma ByteToHexOf(b: byte, hi: nat, lo: nat)
    requires hi < 16 && lo < 16 && b as int == hi * 16 + lo
    ensures ByteToHex(b) == [Digits[hi], Digits[lo]]
  {
    NibblesOf(hi, lo);
  }

  /** A leading pair of digits decodes to the byte they spell, ahead of the decoded rest. */
  lemma FromHexPair(s: string, b: byte)
    requires |s| >= 2 && !IsSpace(s[0])
    requires DigitValue(s[0]).Some? && DigitValue(s[1]).Some?
    requires b as int == DigitValue(s[0]).value * 16 + DigitValue(s[1]).value
    requires FromHex(s[2..]).Ok?
    ensures FromHex(s) == Ok([b] + FromHex(s[2..]).value)
  {
  }

  /** Encoding one byte more prepends its two digits. */
  lemma HexCons(b: byte, rest: bytes)
    ensures Hex([b] + rest) == ByteToHex(b) + Hex(rest)
  {
    assert ([b] + rest)[1..] == rest;
  }

  /** Conversely, a canonical string decodes, and encoding the result gives the string back. */
  lemma {:induction false} HexFromHex(s: string)
    requires |s| % 2 == 0
    requires forall k :: 0 <= k < |s| ==> IsLowerHexDigit(s[k])
    ensures FromHex(s).Ok? && Hex(FromHex(s).value) == s
    decreases |s|
  {
    if |s| > 0 {
      var tail := s[2..];
      assert forall k :: 0 <= k < |tail| ==> tail[k] == s[k + 2];
      HexFromHex(tail);
      var b := PairRoundTrip(s[0], s[1]);
      var rest := FromHex(tail).value;
      FromHexPair(s, b);
      HexCons(b, rest);
      assert s == [s[0], s[1]] + tail;
    }
  }
}

=== FILE: common.dfy ===
/** Values, error outcomes and Python string operations shared by every service of the pipeline. */
module Common {

  /** An octet, as held by a Python `bytes` object. */
  newtype byte = x: int | 0 <= x < 256

  type bytes = seq<byte>

  /** A sentence-transformer embedding; the model never looks at its floating-point values. */
  type Embedding = seq<real>

  datatype Option<+T> = None | Some(value: T)

  /** The exceptions the core can raise, one constructor per Python exception it stands for. */
  datatype Error =
    | NoSuchKey(key: string)              // botocore ClientError raised by S3 get_object
    | NonHexadecimal                      // ValueError raised by bytes.fromhex
    | InvalidCiphertext                   // botocore ClientError raised by KMS Decrypt
    | InvalidToken                        // cryptography.fernet.InvalidToken
    | KeyCreationFailed(tenant: string)   // error raised by KMS CreateKey, re-raised
    | AliasCreationFailed(alias: string)  // error raised by KMS CreateAlias, re-raised

  datatype Result<+T> = Ok(value: T) | Err(error: Error)

  /** Python `s.startswith(prefix)`. */
  predicate StartsWith(s: string, prefix: string) {
    |prefix| <= |s| && s[..|prefix|] == prefix
  }

  /** Python `pattern in s`. */
  predicate Contains(s: string, pattern: string)
    decreases |s|
  {
    StartsWith(s, pattern) || (|s| > 0 && Contains(s[1..], pattern))
  }

  /** A string shorter than the pattern cannot contain it. */
  lemma {:induction false} ContainsShorter(s: string, pattern: string)
    requires |s| < |pattern|
    ensures !Contains(s, pattern)
    decreases |s|
  {
    if |s| > 0 {
      ContainsShorter(s[1..], pattern);
    }
  }

  /** Python `s.replace(pattern, replacement)` for a non-empty pattern: every non-overlapping
      occurrence, found scanning from left to right, is replaced. */
  function ReplaceAll(s: string, pattern: string, replacement: string): (r: string)
    requires |pattern| > 0
    ensures !Contains(s, pattern) ==> r == s
    ensures replacement == "" ==> |r| <= |s|
    decreases |s|
  {
    if StartsWith(s, pattern) then replacement + ReplaceAll(s[|pattern|..], pattern, replacement)
    else if |s| == 0 then ""
    else [s[0]] + ReplaceAll(s[1..], pattern, replacement)
  }

  /** A string that starts with the pattern loses exactly that first occurrence and the scan
      resumes right after it. */
  lemma ReplaceAllLeading(pattern: string, s: string, replacement: string)
    requires |pattern| > 0
    ensures ReplaceAll(pattern + s, pattern, replacement) == replacement + ReplaceAll(s, pattern, replacement)
  {
    assert (pattern + s)[..|pattern|] == pattern;
    assert (pattern + s)[|pattern|..] == s;
  }

  /** A first character that cannot start the pattern is kept. */
  lemma ReplaceAllKeep(c: char, s: string, pattern: string, replacement: string)
    requires |pattern| > 0 && c != pattern[0]
    ensures ReplaceAll([c] + s, pattern, replacement) == [c] + ReplaceAll(s, pattern, replacement)
  {
    assert ([c] + s)[1..] == s;
    assert !StartsWith([c] + s, pattern) by {
      if |pattern| <= |[c] + s| {
        assert ([c] + s)[..|pattern|][0] == c;
      }
    }
  }

  /** Deleting the occurrences of a pattern the string does contain makes it strictly shorter. */
  lemma {:induction false} ReplaceAllDeletes(s: string, pattern: string)
    requires |pattern| > 0 && Contains(s, pattern)
    ensures |ReplaceAll(s, pattern, "")| < |s|
    decreases |s|
  {
    if StartsWith(s, pattern) {
    } else {
      ReplaceAllDeletes(s[1..], pattern);
    }
  }

  /** Deleting every occurrence of `pattern` from `pattern + s` gives back `s` exactly when `s`
      itself holds no occurrence of the pattern. */
  lemma StripRoundTrip(pattern: string, s: string)
    requires |pattern| > 0
    ensures ReplaceAll(pattern + s, pattern, "") == s <==> !Contains(s, pattern)
  {
    ReplaceAllLeading(pattern, s, "");
    if Contains(s, pattern) {
      ReplaceAllDeletes(s, pattern);
    }
  }

  /** Python `sep.join(parts)`. */
  function Join(parts: seq<string>, sep: string): (r: string)
    ensures forall k :: 0 <= k < |parts| ==> |parts[k]| <= |r|
    ensures |parts| > 0 ==> StartsWith(r, parts[0])
    ensures |parts| > 1 ==> |r| >= |parts[0]| + |sep|
    decreases |parts|
  {
    if |parts| == 0 then ""
    else if |parts| == 1 then parts[0]
    else
      var rest := Join(parts[1..], sep);
      assert forall k :: 1 <= k < |parts| ==> parts[k] == parts[1..][k - 1];
      assert (parts[0] + sep + rest)[..|parts[0]|] == parts[0];
      parts[0] + sep + rest
  }

  /** With a non-empty separator, the joined string is empty exactly when there is nothing to
      join or a single empty part. */
  lemma JoinEmpty(parts: seq<string>, sep: string)
    requires |sep| > 0
    ensures Join(parts, sep) == "" <==> |parts| == 0 || (|parts| == 1 && parts[0] == "")
  {
    if |parts| > 1 {
      assert |Join(parts, sep)| >= |sep|;
    }
  }
}

=== FILE: encryption_service.dfy ===
/** Envelope encryption: a fresh data key from the KMS encrypts the text, and the KMS-wrapped
    form of that key travels with the ciphertext. The symmetric cipher (Fernet) is modelled
    symbolically: a token is an opaque value, and the cipher remembers which key sealed which
    text under it, so a token opens only with the data key that sealed it. */
module Encryption {
  import opened Common
  import opened Kms

  /** What a Fernet token seals: the data key it was made with and the text inside. */
  datatype Sealed = Sealed(dek: bytes, text: string)

  /** What `encrypt_text` returns: {"ciphertext": ..., "encrypted_dek": ...}. */
  datatype Envelope = Envelope(ciphertext: bytes, encryptedDek: bytes)

  class EncryptionService {
    const kms: KmsService
    var tokens: map<bytes, Sealed>   // every Fernet token minted so far

    ghost predicate Valid()
      reads this, kms
    {
      kms.Valid()
    }

    constructor ()
      ensures Valid() && fresh(kms)
      ensures tokens == map[] && kms.keys == map[] && kms.aliases == map[] && kms.issued == map[]
    {
      kms := new KmsService();
      tokens := map[];
    }

    /** `encrypt_text`: a data key for the tenant from the KMS (provisioning its master key on
        first use), then the text sealed under the plaintext key into the fresh token `token`. */
    method EncryptText(tenant: string, text: string, outcome: CreateOutcome, drawn: DataKey, token: bytes)
      returns (r: Result<Envelope>)
      requires Valid()
      modifies this, kms
      ensures Valid()
      ensures r.Ok? <==> old(AliasName(tenant) in kms.aliases) || outcome == Created
      ensures r.Ok? ==>
        && r.value == Envelope(token, drawn.blob)
        && tokens == old(tokens)[token := Sealed(drawn.plaintext, text)]
        && drawn.blob in kms.issued && kms.keys[kms.issued[drawn.blob].key] == tenant
        && AliasName(tenant) in kms.aliases
        && kms.issued == old(kms.issued)[drawn.blob := Wrapped(kms.aliases[AliasName(tenant)], drawn.plaintext)]
        && DecryptText(r.value.ciphertext, r.value.encryptedDek) == Ok(text)
      ensures r.Err? ==> tokens == old(tokens) && kms.issued == old(kms.issued)
      ensures kms.Provisioned(tenant, outcome)
      ensures kms.issued.Keys <= old(kms.issued.Keys) + {drawn.blob}
      ensures forall b :: b in old(kms.issued) && b != drawn.blob ==> b in kms.issued && kms.issued[b] == old(kms.issued[b])
      ensures forall id :: id in old(kms.keys) ==> id in kms.keys && kms.keys[id] == old(kms.keys)[id]
    {
      var dataKey := kms.GenerateDataKey(tenant, outcome, drawn);
      if dataKey.Err? {
        return Err(dataKey.error);
      }
      tokens := tokens[token := Sealed(dataKey.value.plaintext, text)];
      r := Ok(Envelope(token, dataKey.value.blob));
    }

    /** `decrypt_text`: unwrap the data key through the KMS, then open the token with it. A
        blob the KMS never issued, a token never minted, or a token sealed under another data
        key all fail. */
    function DecryptText(ciphertext: bytes, encryptedDek: bytes): (r: Result<string>)
      reads this, kms
      ensures r.Ok? <==>
        && encryptedDek in kms.issued && ciphertext in tokens
        && tokens[ciphertext].dek == kms.issued[encryptedDek].plaintext
      ensures r.Ok? ==> r.value == tokens[ciphertext].text
    {
      match kms.DecryptDataKey(encryptedDek)
      case Err(e) => Err(e)
      case Ok(dek) =>
        if ciphertext in tokens && tokens[ciphertext].dek == dek then Ok(tokens[ciphertext].text)
        else Err(InvalidToken)
    }
  }
}

=== FILE: endpoints.dfy ===
/** The two pipelines of the API. Ingestion redacts a document, seals it under a fresh data key
    of the tenant, stores the ciphertext and indexes the redacted text in the tenant's
    collection. Retrieval logs the query with the anomaly gate, searches the tenant's
    collection, fetches and decrypts each hit, and has the answer generated from the decrypted
    texts. Any exception on the way becomes an HTTP 500 carrying the exception. */
module Endpoints {
  import opened Common
  import opened Base16
  import opened Pii
  import opened Kms
  import opened Encryption
  import opened Storage
  import opened Vectors
  import opened Anomaly
  import opened Llm

  datatype IngestResponse = IngestResponse(pointId: nat, s3Uri: string, scrubbedPreview: string)

  datatype Document = Document(score: real, content: string, s3Uri: string)

  datatype QueryResponse = QueryResponse(results: seq<Document>, generatedAnswer: string, anomalyDetected: bool)

  /** What an endpoint answers: its JSON body, or status 500 with the exception as detail. */
  datatype Http<+T> = Success(body: T) | InternalServerError(detail: Error)

  /** The random values one ingestion draws: the uuid4 naming the object, the data key the
      key service generates, and the Fernet token (random IV) sealing the text. */
  datatype Entropy = Entropy(fileUuid: string, dataKey: DataKey, token: bytes)

  /** The object key of an ingested document, under the tenant's folder. */
  function FileKey(tenant: string, uuid: string): (k: string)
    ensures StartsWith(k, tenant + "/")
  {
    assert tenant + "/" + uuid + ".enc" == (tenant + "/") + (uuid + ".enc");
    tenant + "/" + uuid + ".enc"
  }

  /** Two ingestions never share an object key unless they name the same tenant and the same
      uuid: a uuid holds no "/", so the last "/" of the key ends the tenant's folder. */
  lemma FileKeyNamesTenant(t1: string, u1: string, t2: string, u2: string)
    requires forall k :: 0 <= k < |u1| ==> u1[k] != '/'
    requires forall k :: 0 <= k < |u2| ==> u2[k] != '/'
    requires FileKey(t1, u1) == FileKey(t2, u2)
    ensures t1 == t2 && u1 == u2
  {
    var key := FileKey(t1, u1);
    FolderEnds(t1, u1);
    FolderEnds(t2, u2);
    assert key[|t1|] == '/' && key[|t2|] == '/';
    assert |t1| == |t2|;
    assert t1 == key[..|t1|] == t2;
    assert u1 == key[|t1| + 1..|key| - 4] == u2;
  }

  /** In the key of a uuid without "/", the "/" after the tenant's folder is the last one. */
  lemma FolderEnds(t: string, u: string)
    requires forall k :: 0 <= k < |u| ==> u[k] != '/'
    ensures var key := FileKey(t, u);
      && |key| == |t| + |u| + 5 && key[|t|] == '/'
      && key[..|t|] == t && key[|t| + 1..|key| - 4] == u
      && forall i :: |t| < i < |key| ==> key[i] != '/'
  {
    var key := FileKey(t, u);
    assert key == t + "/" + u + ".enc";
    assert forall i :: |t| < i < |t| + 1 + |u| ==> key[i] == u[i - |t| - 1];
    assert forall i :: |t| + 1 + |u| <= i < |key| ==> key[i] == ".enc"[i - |t| - 1 - |u|];
  }

  /** The object key in a URI of the bucket: what follows "s3://<bucket>/"; any other string is
      taken as a key as it stands. */
  function KeyOfUri(bucket: string, uri: string): string {
    if StartsWith(uri, UriPrefix(bucket)) then uri[|UriPrefix(bucket)|..] else uri
  }

  /** The object key as the retrieval loop computes it: every "s3://<bucket>/" in the URI deleted. */
  function KeyOfUriAsWritten(bucket: string, uri: string): (k: string)
    ensures |k| <= |uri|
    ensures !Contains(uri, UriPrefix(bucket)) ==> k == uri
    ensures Contains(uri, UriPrefix(bucket)) ==> |k| < |uri|
  {
    if Contains(uri, UriPrefix(bucket)) then
      ReplaceAllDeletes(uri, UriPrefix(bucket));
      ReplaceAll(uri, UriPrefix(bucket), "")
    else
      ReplaceAll(uri, UriPrefix(bucket), "")
  }

  /** Every object key comes back from the URI its upload returned. */
  lemma KeyOfUriRoundTrip(bucket: string, fileKey: string)
    ensures KeyOfUri(bucket, S3Uri(bucket, fileKey)) == fileKey
  {
    S3UriParts(bucket, fileKey);
    assert StartsWith(UriPrefix(bucket) + fileKey, UriPrefix(bucket));
  }

  /** Deleting every "s3://<bucket>/" gives the key back exactly when the key itself holds no
      such substring. */
  lemma KeyOfUriAsWrittenRoundTrip(bucket: string, fileKey: string)
    ensures KeyOfUriAsWritten(bucket, S3Uri(bucket, fileKey)) == fileKey <==> !Contains(fileKey, UriPrefix(bucket))
  {
    S3UriParts(bucket, fileKey);
    StripRoundTrip(UriPrefix(bucket), fileKey);
  }

  /** No string without a colon holds a bucket's URI prefix. */
  lemma {:induction false} NoColonNoPrefix(s: string, bucket: string)
    requires forall k :: 0 <= k < |s| ==> s[k] != ':'
    ensures !Contains(s, UriPrefix(bucket))
    decreases |s|
  {
    assert UriPrefix(bucket)[2] == ':';
    if |s| > 0 {
      NoColonNoPrefix(s[1..], bucket);
    }
  }

  /** A tenant id and a uuid without ':' (the hexadecimal form of a uuid never has one) make
      an object key from which retrieval's strip removes nothing. */
  lemma FileKeyHoldsNoPrefix(tenant: string, uuid: string, bucket: string)
    requires forall k :: 0 <= k < |tenant| ==> tenant[k] != ':'
    requires forall k :: 0 <= k < |uuid| ==> uuid[k] != ':'
    ensures !Contains(FileKey(tenant, uuid), UriPrefix(bucket))
    ensures KeyOfUriAsWritten(bucket, S3Uri(bucket, FileKey(tenant, uuid))) == FileKey(tenant, uuid)
  {
    var key := FileKey(tenant, uuid);
    assert key == tenant + ("/" + uuid + ".enc");
    assert forall k :: |tenant| < k < |tenant| + 1 + |uuid| ==> key[k] == uuid[k - |tenant| - 1];
    assert forall k :: |tenant| + 1 + |uuid| <= k < |key| ==> key[k] == ".enc"[k - |tenant| - 1 - |uuid|];
    NoColonNoPrefix(key, bucket);
    KeyOfUriAsWrittenRoundTrip(bucket, key);
  }

  /** A tenant id that is itself "s3://<bucket>" puts every document at an object key that
      starts with the bucket's URI prefix; retrieval deletes that copy of the prefix too and
      asks the bucket for "<uuid>.enc", which is not where the document is. */
  lemma KeyOfUriAsWrittenLosesKey(bucket: string, uuid: string)
    requires forall k :: 0 <= k < |uuid| ==> uuid[k] != ':'
    ensures FileKey("s3://" + bucket, uuid) != uuid + ".enc"
    ensures KeyOfUriAsWritten(bucket, S3Uri(bucket, FileKey("s3://" + bucket, uuid))) == uuid + ".enc"
  {
    var prefix := UriPrefix(bucket);
    var name := uuid + ".enc";
    var key := FileKey("s3://" + bucket, uuid);
    KeyInBucketFolder(bucket, uuid);
    S3UriParts(bucket, key);
    ReplaceAllLeading(prefix, key, "");
    ReplaceAllLeading(prefix, name, "");
    EncNameNoColon(uuid);
    NoColonNoPrefix(name, bucket);
    assert ReplaceAll(name, prefix, "") == name;
  }

  /** The key of a document of the tenant "s3://<bucket>" is the bucket's URI prefix followed
      by the object's name. */
  lemma KeyInBucketFolder(bucket: string, uuid: string)
    ensures FileKey("s3://" + bucket, uuid) == UriPrefix(bucket) + (uuid + ".enc")
  {
  }

  lemma EncNameNoColon(uuid: string)
    requires forall k :: 0 <= k < |uuid| ==> uuid[k] != ':'
    ensures forall k :: 0 <= k < |uuid + ".enc"| ==> (uuid + ".enc")[k] != ':'
  {
    var name := uuid + ".enc";
    forall k | |uuid| <= k < |name| ensures name[k] != ':' {
      assert name[k] == ".enc"[k - |uuid|];
    }
  }

  function Contents(documents: seq<Document>): (r: seq<string>)
    ensures |r| == |documents|
    ensures forall k :: 0 <= k < |r| ==> r[k] == documents[k].content
  {
    seq(|documents|, k requires 0 <= k < |documents| => documents[k].content)
  }

  /** The generation context: the decrypted texts joined by single spaces. */
  function Context(documents: seq<Document>): (c: string)
    ensures forall k :: 0 <= k < |documents| ==> |documents[k].content| <= |c|
    ensures |documents| > 0 ==> StartsWith(c, documents[0].content)
  {
    Join(Contents(documents), " ")
  }

  /** The context is empty, and the canned answer given, exactly when there are no results or
      a single result with an empty text. */
  lemma ContextEmpty(documents: seq<Document>)
    ensures Context(documents) == "" <==> |documents| == 0 || (|documents| == 1 && documents[0].content == "")
  {
    JoinEmpty(Contents(documents), " ");
  }

  /** The API process: one instance of each service, wired together. */
  class Pipeline {
    const ner: string -> seq<Entity>                // the NER model of the PII scrubber
    const generate: string -> Option<seq<string>>   // the FLAN-T5 text2text pipeline
    const encryption: EncryptionService
    const storage: StorageService
    const vectors: VectorService
    const anomaly: AnomalyDetector

    ghost predicate Valid()
      reads this, encryption, encryption.kms, vectors, anomaly
    {
      encryption.Valid() && vectors.Valid() && anomaly.Valid()
    }

    constructor (ner: string -> seq<Entity>, embed: string -> Embedding,
                 similarity: (Embedding, Embedding) -> real, fits: seq<Embedding> -> bool,
                 predict: (Forest, Embedding) -> int, generate: string -> Option<seq<string>>)
      ensures Valid() && Consistent()
      ensures this.ner == ner && this.generate == generate
      ensures storage.bucket == DefaultBucket && storage.objects == map[]
      ensures vectors.embed == embed && vectors.similarity == similarity
      ensures vectors.names == [] && vectors.collections == map[]
      ensures anomaly.fits == fits && anomaly.predict == predict
      ensures anomaly.history == map[] && anomaly.models == map[]
      ensures encryption.tokens == map[] && encryption.kms.keys == map[]
      ensures encryption.kms.aliases == map[] && encryption.kms.issued == map[]
      ensures fresh(encryption) && fresh(encryption.kms) && fresh(storage) && fresh(vectors) && fresh(anomaly)
    {
      this.ner := ner;
      this.generate := generate;
      encryption := new EncryptionService();
      storage := new StorageService(DefaultBucket);
      vectors := new VectorService(embed, similarity);
      anomaly := new AnomalyDetector(fits, predict);
    }

    /** Fetches, unwraps and decrypts the document a search hit points at, in the order the
        retrieval loop does: the object key by the code's strip, download, hex decoding of the
        wrapped data key, decryption. */
    function ResolvePayload(payload: Payload): (r: Result<string>)
      reads storage, encryption, encryption.kms
      ensures var key := KeyOfUriAsWritten(storage.bucket, payload.s3Uri);
        var dek := FromHex(payload.encryptedDekHex);
        && (key !in storage.objects ==> r == Err(NoSuchKey(key)))
        && (key in storage.objects && dek.Err? ==> r == Err(NonHexadecimal))
        && (r.Ok? <==>
              && key in storage.objects && dek.Ok?
              && dek.value in encryption.kms.issued && storage.objects[key] in encryption.tokens
              && encryption.tokens[storage.objects[key]].dek == encryption.kms.issued[dek.value].plaintext)
        && (r.Ok? ==> r.value == encryption.tokens[storage.objects[key]].text)
    {
      match storage.DownloadFile(KeyOfUriAsWritten(storage.bucket, payload.s3Uri))
      case Err(e) => Err(e)
      case Ok(data) =>
        match FromHex(payload.encryptedDekHex)
        case Err(e) => Err(e)
        case Ok(dek) => encryption.DecryptText(data, dek)
    }

    /** The documents for a list of search hits, or the exception of the first hit that fails. */
    function ResolveAll(hits: seq<ScoredPoint>): (r: Result<seq<Document>>)
      reads storage, encryption, encryption.kms
      ensures r.Ok? <==> forall k :: 0 <= k < |hits| ==> ResolvePayload(hits[k].point.payload).Ok?
      ensures r.Ok? ==> |r.value| == |hits| && forall k :: 0 <= k < |hits| ==>
        r.value[k] == Document(hits[k].score, ResolvePayload(hits[k].point.payload).value, hits[k].point.payload.s3Uri)
      ensures r.Err? ==>
        exists k :: 0 <= k < |hits| && ResolvePayload(hits[k].point.payload) == Err(r.error) &&
          (forall j :: 0 <= j < k ==> ResolvePayload(hits[j].point.payload).Ok?)
      decreases |hits|
    {
      if |hits| == 0 then Ok([])
      else
        var n := |hits| - 1;
        match ResolveAll(hits[..n])
        case Err(e) =>
          assert forall k :: 0 <= k < n ==> hits[..n][k] == hits[k];
          Err(e)
        case Ok(documents) =>
          assert forall k :: 0 <= k < n ==> hits[..n][k] == hits[k];
          var hit := hits[n];
          match ResolvePayload(hit.point.payload)
          case Err(e) =>
            assert ResolvePayload(hits[n].point.payload) == Err(e);
            Err(e)
          case Ok(content) =>
            var all := documents + [Document(hit.score, content, hit.point.payload.s3Uri)];
            assert forall k :: 0 <= k < n ==> all[k] == documents[k];
            Ok(all)
    }

    /** The retrieval loop over the search hits; the first exception aborts the request. */
    method ResolveHits(hits: seq<ScoredPoint>) returns (r: Result<seq<Document>>)
      ensures r == ResolveAll(hits)
    {
      var documents := [];
      var i := 0;
      while i < |hits|
        invariant 0 <= i <= |hits|
        invariant ResolveAll(hits[..i]) == Ok(documents)
      {
        var payload := hits[i].point.payload;
        assert hits[..i + 1][..i] == hits[..i];
        var fileKey := KeyOfUriAsWritten(storage.bucket, payload.s3Uri);
        var encryptedData := storage.DownloadFile(fileKey);
        if encryptedData.Err? {
          FirstFailure(hits, i);
          return Err(encryptedData.error);
        }
        var encryptedDek := FromHex(payload.encryptedDekHex);
        if encryptedDek.Err? {
          FirstFailure(hits, i);
          return Err(encryptedDek.error);
        }
        var plaintext := encryption.DecryptText(encryptedData.value, encryptedDek.value);
        if plaintext.Err? {
          FirstFailure(hits, i);
          return Err(plaintext.error);
        }
        documents := documents + [Document(hits[i].score, plaintext.value, payload.s3Uri)];
        i := i + 1;
      }
      assert hits[..i] == hits;
      r := Ok(documents);
    }

    /** When hit `i` is the first to fail, the whole loop fails with its exception. */
    lemma {:induction false} FirstFailure(hits: seq<ScoredPoint>, i: nat)
      requires i < |hits| && ResolveAll(hits[..i]).Ok?
      requires ResolvePayload(hits[i].point.payload).Err?
      ensures ResolveAll(hits) == Err(ResolvePayload(hits[i].point.payload).error)
    {
      assert hits[..i + 1][..i] == hits[..i];
      assert ResolveAll(hits[..i + 1]) == Err(ResolvePayload(hits[i].point.payload).error);
      FailurePersists(hits, i + 1);
    }

    /** Once a prefix of the hits fails, the hits after it are never looked at. */
    lemma {:induction false} FailurePersists(hits: seq<ScoredPoint>, n: nat)
      requires n <= |hits| && ResolveAll(hits[..n]).Err?
      ensures ResolveAll(hits) == ResolveAll(hits[..n])
      decreases |hits| - n
    {
      if n == |hits| {
        assert hits[..n] == hits;
      } else {
        assert hits[..n + 1][..n] == hits[..n];
        FailurePersists(hits, n + 1);
      }
    }

    /** The hit's document can be fetched and decrypted, with a data key that the key service
        issued under a master key tagged with `tenant`. */
    ghost predicate Retrievable(tenant: string, payload: Payload)
      reads storage, encryption, encryption.kms
    {
      && ResolvePayload(payload).Ok?
      && FromHex(payload.encryptedDekHex).Ok?
      && FromHex(payload.encryptedDekHex).value in encryption.kms.issued
      && encryption.kms.issued[FromHex(payload.encryptedDekHex).value].key in encryption.kms.keys
      && encryption.kms.keys[encryption.kms.issued[FromHex(payload.encryptedDekHex).value].key] == tenant
    }

    /** Every point of every tenant's collection is retrievable under that tenant's own keys. */
    ghost predicate Consistent()
      reads this, storage, encryption, encryption.kms, vectors
    {
      forall t, k :: CollectionName(t) in vectors.collections && 0 <= k < |vectors.collections[CollectionName(t)]| ==>
        Retrievable(t, vectors.collections[CollectionName(t)][k].payload)
    }

    /** The random values of an ingestion collide with nothing stored so far. */
    ghost predicate FreshEntropy(tenant: string, entropy: Entropy)
      reads this, storage, encryption, encryption.kms
    {
      && FileKey(tenant, entropy.fileUuid) !in storage.objects
      && entropy.token !in encryption.tokens
      && entropy.dataKey.blob !in encryption.kms.issued
    }

    /** The object store, the minted tokens, the issued blobs and the key tags only gained
        entries, none of them changed. */
    twostate predicate StoresGrew()
      reads storage, encryption, encryption.kms
    {
      && (forall f :: f in old(storage.objects) ==> f in storage.objects && storage.objects[f] == old(storage.objects[f]))
      && (forall c :: c in old(encryption.tokens) ==> c in encryption.tokens && encryption.tokens[c] == old(encryption.tokens[c]))
      && (forall b :: b in old(encryption.kms.issued) ==>
            b in encryption.kms.issued && encryption.kms.issued[b] == old(encryption.kms.issued[b]))
      && (forall id :: id in old(encryption.kms.keys) ==>
            id in encryption.kms.keys && encryption.kms.keys[id] == old(encryption.kms.keys[id]))
    }

    /** Steps 1 and 2 of `ingest_document`: redact the text, then seal it under a new data key
        of the tenant. Nothing is stored or indexed yet. */
    method SealDocument(tenant: string, text: string, outcome: CreateOutcome, entropy: Entropy)
      returns (scrubbed: string, sealed: Result<Envelope>)
      requires Valid()
      modifies encryption, encryption.kms
      ensures Valid()
      ensures scrubbed == Scrubbed(text, ner(text))
      ensures sealed.Ok? <==> old(AliasName(tenant) in encryption.kms.aliases) || outcome == Created
      ensures sealed.Ok? ==>
        && sealed.value == Envelope(entropy.token, entropy.dataKey.blob)
        && encryption.tokens == old(encryption.tokens)[entropy.token := Sealed(entropy.dataKey.plaintext, scrubbed)]
        && AliasName(tenant) in encryption.kms.aliases
        && encryption.kms.issued == old(encryption.kms.issued)[entropy.dataKey.blob :=
             Wrapped(encryption.kms.aliases[AliasName(tenant)], entropy.dataKey.plaintext)]
        && encryption.DecryptText(entropy.token, entropy.dataKey.blob) == Ok(scrubbed)
        && entropy.dataKey.blob in encryption.kms.issued
        && encryption.kms.keys[encryption.kms.issued[entropy.dataKey.blob].key] == tenant
      ensures sealed.Err? ==> encryption.tokens == old(encryption.tokens) && encryption.kms.issued == old(encryption.kms.issued)
      ensures encryption.kms.Provisioned(tenant, outcome)
      ensures old(Consistent()) && old(FreshEntropy(tenant, entropy)) ==> Consistent()
    {
      scrubbed := Scrub(text, ner(text));
      sealed := encryption.EncryptText(tenant, scrubbed, outcome, entropy.dataKey, entropy.token);
      if old(Consistent()) && old(FreshEntropy(tenant, entropy)) {
        assert StoresGrew();
        forall t, k | CollectionName(t) in vectors.collections && 0 <= k < |vectors.collections[CollectionName(t)]|
          ensures Retrievable(t, vectors.collections[CollectionName(t)][k].payload)
        {
          var p := vectors.collections[CollectionName(t)][k].payload;
          assert old(Retrievable(t, p));
          var data := storage.DownloadFile(KeyOfUriAsWritten(storage.bucket, p.s3Uri)).value;
          var dek := FromHex(p.encryptedDekHex).value;
          assert encryption.DecryptText(data, dek) == old(encryption.DecryptText(data, dek));
        }
      }
    }

    /** Steps 3 and 4 of `ingest_document`: upload the sealed text under a new object key in
        the tenant's folder, then index the redacted text with the URI and the wrapped data key. */
    method StoreDocument(tenant: string, scrubbed: string, sealed: Envelope, fileUuid: string)
      returns (pointId: nat, s3Uri: string)
      requires Valid()
      requires encryption.DecryptText(sealed.ciphertext, sealed.encryptedDek) == Ok(scrubbed)
      requires sealed.encryptedDek in encryption.kms.issued
      requires encryption.kms.keys[encryption.kms.issued[sealed.encryptedDek].key] == tenant
      modifies storage, vectors
      ensures Valid()
      ensures var payload := Payload(s3Uri, Hex(sealed.encryptedDek));
        && s3Uri == S3Uri(storage.bucket, FileKey(tenant, fileUuid))
        && storage.objects == old(storage.objects)[FileKey(tenant, fileUuid) := sealed.ciphertext]
        && vectors.names == WithName(old(vectors.names), CollectionName(tenant))
        && vectors.collections == old(vectors.collections)[CollectionName(tenant) :=
             old(vectors.Points(CollectionName(tenant))) + [Point(pointId, vectors.embed(scrubbed), payload)]]
      ensures !Contains(FileKey(tenant, fileUuid), UriPrefix(storage.bucket)) ==>
        var payload := Payload(s3Uri, Hex(sealed.encryptedDek));
        Retrievable(tenant, payload) && ResolvePayload(payload) == Ok(scrubbed)
      ensures (&& old(Consistent()) && FileKey(tenant, fileUuid) !in old(storage.objects)
               && !Contains(FileKey(tenant, fileUuid), UriPrefix(storage.bucket))) ==> Consistent()
    {
      var fileKey := FileKey(tenant, fileUuid);
      s3Uri := storage.UploadFile(fileKey, sealed.ciphertext);
      var vector;
      pointId, vector := vectors.UpsertVector(tenant, scrubbed, s3Uri, sealed.encryptedDek);
      var payload := Payload(s3Uri, Hex(sealed.encryptedDek));
      if !Contains(fileKey, UriPrefix(storage.bucket)) {
        KeyOfUriAsWrittenRoundTrip(storage.bucket, fileKey);
        FromHexHex(sealed.encryptedDek);
        assert ResolvePayload(payload) == Ok(scrubbed);
      }
      if old(Consistent()) && fileKey !in old(storage.objects) && !Contains(fileKey, UriPrefix(storage.bucket)) {
        assert StoresGrew();
        assert Retrievable(tenant, payload);
        forall t, k | CollectionName(t) in vectors.collections && 0 <= k < |vectors.collections[CollectionName(t)]|
          ensures Retrievable(t, vectors.collections[CollectionName(t)][k].payload)
        {
          var n := CollectionName(t);
          var points := vectors.collections[n];
          if n == CollectionName(tenant) {
            CollectionNameInjective(t, tenant);
            var before := old(vectors.Points(n));
            if k < |before| {
              assert points[k] == before[k];
              assert old(Retrievable(t, points[k].payload));
            }
          } else {
            assert old(Retrievable(t, points[k].payload));
          }
        }
      }
    }

    /** `ingest_document`: scrub, encrypt, upload, index; a failure of the key service becomes
        status 500 before anything is stored. */
    method IngestDocument(tenant: string, text: string, outcome: CreateOutcome, entropy: Entropy)
      returns (r: Http<IngestResponse>)
      requires Valid()
      modifies encryption, encryption.kms, storage, vectors
      ensures Valid()
      ensures r.Success? <==> old(AliasName(tenant) in encryption.kms.aliases) || outcome == Created
      ensures r.InternalServerError? ==>
        && storage.objects == old(storage.objects) && encryption.tokens == old(encryption.tokens)
        && vectors.names == old(vectors.names) && vectors.collections == old(vectors.collections)
        && encryption.kms.issued == old(encryption.kms.issued)
      ensures r.Success? ==>
        var scrubbed := Scrubbed(text, ner(text));
        var fileKey := FileKey(tenant, entropy.fileUuid);
        var payload := Payload(S3Uri(storage.bucket, fileKey), Hex(entropy.dataKey.blob));
        && r.body == IngestResponse(r.body.pointId, payload.s3Uri, scrubbed)
        && storage.objects == old(storage.objects)[fileKey := entropy.token]
        && encryption.tokens == old(encryption.tokens)[entropy.token := Sealed(entropy.dataKey.plaintext, scrubbed)]
        && AliasName(tenant) in encryption.kms.aliases
        && encryption.kms.issued == old(encryption.kms.issued)[entropy.dataKey.blob :=
             Wrapped(encryption.kms.aliases[AliasName(tenant)], entropy.dataKey.plaintext)]
        && vectors.names == WithName(old(vectors.names), CollectionName(tenant))
        && vectors.collections == old(vectors.collections)[CollectionName(tenant) :=
             old(vectors.Points(CollectionName(tenant))) + [Point(r.body.pointId, vectors.embed(scrubbed), payload)]]
        && (!Contains(fileKey, UriPrefix(storage.bucket)) ==>
              Retrievable(tenant, payload) && ResolvePayload(payload) == Ok(scrubbed))
      ensures encryption.kms.Provisioned(tenant, outcome)
      ensures (&& old(Consistent()) && old(FreshEntropy(tenant, entropy))
               && !Contains(FileKey(tenant, entropy.fileUuid), UriPrefix(storage.bucket))) ==> Consistent()
    {
      var scrubbed, sealed := SealDocument(tenant, text, outcome, entropy);
      if sealed.Err? {
        return InternalServerError(sealed.error);
      }
      var pointId, s3Uri := StoreDocument(tenant, scrubbed, sealed.value, entropy.fileUuid);
      r := Success(IngestResponse(pointId, s3Uri, scrubbed));
    }

    /** Step 1 of `query_document`: log the query embedding with the anomaly gate, then read
        back the gate's verdict on it. */
    method CheckAnomaly(tenant: string, queryVector: Embedding) returns (isFlagged: bool)
      requires Valid()
      modifies anomaly
      ensures Valid()
      ensures anomaly.history == old(anomaly.history)[tenant := old(anomaly.History(tenant)) + [queryVector]]
      ensures anomaly.models ==
        if |anomaly.History(tenant)| >= MinSamplesToTrain && anomaly.fits(anomaly.History(tenant))
        then old(anomaly.models)[tenant := Forest(anomaly.History(tenant))]
        else old(anomaly.models)
      ensures isFlagged == anomaly.IsAnomalous(tenant, queryVector)
      ensures |anomaly.History(tenant)| >= MinSamplesToTrain && anomaly.fits(anomaly.History(tenant)) ==>
        (isFlagged <==> anomaly.predict(Forest(anomaly.History(tenant)), queryVector) == Outlier)
      ensures |old(anomaly.History(tenant))| + 1 < MinSamplesToTrain ==> !isFlagged
    {
      anomaly.LogQuery(tenant, queryVector);
      isFlagged := anomaly.IsAnomalous(tenant, queryVector);
    }

    /** Steps 2 to 4 of `query_document`: search the tenant's collection, then fetch and
        decrypt every hit. */
    method RetrieveDocuments(tenant: string, query: string) returns (documents: Result<seq<Document>>)
      requires Valid()
      modifies vectors
      ensures Valid()
      ensures vectors.names == WithName(old(vectors.names), CollectionName(tenant))
      ensures vectors.collections == old(vectors.collections)[CollectionName(tenant) := old(vectors.Points(CollectionName(tenant)))]
      ensures documents == ResolveAll(TopK(old(vectors.Points(CollectionName(tenant))), vectors.embed(query), DefaultLimit, vectors.similarity))
      ensures old(Consistent()) ==> documents.Ok? && Consistent()
    {
      var hits, _ := vectors.Search(tenant, query, DefaultLimit);
      documents := ResolveHits(hits);
      if old(Consistent()) {
        assert StoresGrew();
        forall t, k | CollectionName(t) in vectors.collections && 0 <= k < |vectors.collections[CollectionName(t)]|
          ensures Retrievable(t, vectors.collections[CollectionName(t)][k].payload)
        {
          assert CollectionName(t) in old(vectors.collections);
          assert old(Retrievable(t, vectors.collections[CollectionName(t)][k].payload));
        }
        HitsResolve(tenant, hits);
      }
    }

    /** `query_document`: the anomaly verdict, the documents of the tenant's best hits, and the
        answer generated from them; a failure on any hit becomes status 500. */
    method QueryDocument(tenant: string, query: string) returns (r: Http<QueryResponse>)
      requires Valid()
      modifies anomaly, vectors
      ensures Valid()
      ensures anomaly.history == old(anomaly.history)[tenant := old(anomaly.History(tenant)) + [vectors.embed(query)]]
      ensures anomaly.models ==
        if |anomaly.History(tenant)| >= MinSamplesToTrain && anomaly.fits(anomaly.History(tenant))
        then old(anomaly.models)[tenant := Forest(anomaly.History(tenant))]
        else old(anomaly.models)
      ensures r.Success? && |anomaly.History(tenant)| >= MinSamplesToTrain && anomaly.fits(anomaly.History(tenant)) ==>
        (r.body.anomalyDetected <==> anomaly.predict(Forest(anomaly.History(tenant)), vectors.embed(query)) == Outlier)
      ensures vectors.names == WithName(old(vectors.names), CollectionName(tenant))
      ensures vectors.collections == old(vectors.collections)[CollectionName(tenant) := old(vectors.Points(CollectionName(tenant)))]
      ensures var hits := TopK(old(vectors.Points(CollectionName(tenant))), vectors.embed(query), DefaultLimit, vectors.similarity);
        && (r.Success? <==> ResolveAll(hits).Ok?)
        && (r.InternalServerError? ==> r.detail == ResolveAll(hits).error)
        && (r.Success? ==> r.body == QueryResponse(
              ResolveAll(hits).value,
              GenerateAnswer(generate, Context(ResolveAll(hits).value), query),
              anomaly.IsAnomalous(tenant, vectors.embed(query))))
      ensures old(Consistent()) ==> r.Success? && Consistent()
      ensures old(anomaly.History(tenant)) == [] && old(vectors.Points(CollectionName(tenant))) == [] ==>
        r == Success(QueryResponse([], InsufficientInformation, false))
    {
      ghost var wasConsistent := Consistent();
      var queryVector := vectors.embed(query);
      var isFlagged := CheckAnomaly(tenant, queryVector);
      assert Consistent() == wasConsistent;
      var documents := RetrieveDocuments(tenant, query);
      if documents.Err? {
        return InternalServerError(documents.error);
      }
      var context := Context(documents.value);
      var answer := GenerateAnswer(generate, context, query);
      r := Success(QueryResponse(documents.value, answer, isFlagged));
    }

    /** Search hits drawn from a tenant's collection of a consistent pipeline all resolve. */
    lemma {:induction false} HitsResolve(tenant: string, hits: seq<ScoredPoint>)
      requires Consistent()
      requires CollectionName(tenant) in vectors.collections
      requires forall k :: 0 <= k < |hits| ==> hits[k].point in vectors.collections[CollectionName(tenant)]
      ensures ResolveAll(hits).Ok?
    {
      var points := vectors.collections[CollectionName(tenant)];
      forall k | 0 <= k < |hits| ensures ResolvePayload(hits[k].point.payload).Ok? {
        assert hits[k].point in points;
        forall j | 0 <= j < |points| && points[j] == hits[k].point
          ensures ResolvePayload(hits[k].point.payload).Ok?
        {
          assert Retrievable(tenant, points[j].payload);
        }
      }
    }

    /** `get_tenants`: the tenant ids of the collections. */
    method GetTenants() returns (tenants: seq<string>)
      ensures tenants == TenantsAsWritten(vectors.names)
    {
      tenants := vectors.ListTenants();
    }
  }

  /** After an ingestion for a tenant succeeds, the tenant is listed, provided its id holds
      no "tenant_". */
  lemma IngestedTenantListed(names: seq<string>, tenant: string)
    requires !Contains(tenant, CollectionPrefix)
    ensures tenant in TenantsAsWritten(WithName(names, CollectionName(tenant)))
  {
    TenantListed(WithName(names, CollectionName(tenant)), tenant);
  }
}

=== FILE: kms_service.dfy ===
/** The KMS client together with the in-memory key service it talks to: customer master keys
    tagged with their tenant, aliases bound to keys, and the data keys issued so far. */
module Kms {
  import opened Common

  type KeyId = nat

  /** What `create_key_for_tenant` returns: the alias when it already worked, the raw key id of
      a key it has just created otherwise. */
  datatype KeyRef = AliasRef(alias: string) | KeyIdRef(id: KeyId)

  /** A data key as `generate_data_key` returns it: (CiphertextBlob, Plaintext). */
  datatype DataKey = DataKey(blob: bytes, plaintext: bytes)

  /** What the key service remembers about a blob it issued: the master key that wraps it and
      the plaintext data key inside. */
  datatype Wrapped = Wrapped(key: KeyId, plaintext: bytes)

  /** How the key service answers the creation calls, when provisioning gets that far. */
  datatype CreateOutcome = Created | CreateKeyRejected | CreateAliasRejected

  /** The alias of a tenant's master key: a name in the "alias/" namespace from which the
      tenant id can be read back after the fixed "alias/tenant_". */
  function AliasName(tenant: string): (a: string)
    ensures |a| == |tenant| + 13
    ensures a[..13] == "alias/tenant_" && a[13..] == tenant
  {
    "alias/tenant_" + tenant
  }

  /** Different tenants never share an alias. */
  lemma AliasNameInjective(t1: string, t2: string)
    requires AliasName(t1) == AliasName(t2)
    ensures t1 == t2
  {
  }

  class KmsService {
    var keys: map<KeyId, string>        // every master key, with its TenantID tag
    var aliases: map<string, KeyId>
    var nextKeyId: KeyId                // the key service's source of fresh key ids
    var issued: map<bytes, Wrapped>     // the data-key blobs it has handed out

    ghost predicate Valid()
      reads this
    {
      && (forall id :: id in keys ==> id < nextKeyId)
      && (forall a :: a in aliases ==> aliases[a] in keys)
      && (forall b :: b in issued ==> issued[b].key in keys)
      // a tenant's alias only ever names a key tagged with that tenant
      && (forall t {:trigger AliasName(t)} :: AliasName(t) in aliases ==> keys[aliases[AliasName(t)]] == t)
    }

    constructor ()
      ensures Valid()
      ensures keys == map[] && aliases == map[] && issued == map[]
    {
      keys, aliases, nextKeyId, issued := map[], map[], 0, map[];
    }

    /** What provisioning the tenant's master key did to the keys and the aliases: nothing when
        the alias was bound or key creation was rejected; otherwise one new key, tagged with
        the tenant, and, when alias creation went through too, the alias bound to it. */
    twostate predicate Provisioned(tenant: string, outcome: CreateOutcome)
      reads this
    {
      if old(AliasName(tenant) in aliases) || outcome == CreateKeyRejected then
        keys == old(keys) && aliases == old(aliases)
      else
        && old(nextKeyId) !in old(keys)
        && keys == old(keys)[old(nextKeyId) := tenant]
        && aliases == (if outcome == Created then old(aliases)[AliasName(tenant) := old(nextKeyId)] else old(aliases))
    }

    /** Provisions the tenant's master key by probe-then-create. The probe is a data-key request
        through the alias; it succeeds exactly when the alias is bound. Otherwise one key is
        created, tagged with the tenant, and the alias is bound to it; a failure of either
        creation call is raised again, leaving behind whatever was already created. */
    method CreateKeyForTenant(tenant: string, outcome: CreateOutcome) returns (r: Result<KeyRef>)
      requires Valid()
      modifies this
      ensures Valid()
      ensures issued == old(issued)
      ensures old(AliasName(tenant) in aliases) ==>
        r == Ok(AliasRef(AliasName(tenant))) && keys == old(keys) && aliases == old(aliases)
      ensures !old(AliasName(tenant) in aliases) ==>
        match outcome
        case CreateKeyRejected =>
          r == Err(KeyCreationFailed(tenant)) && keys == old(keys) && aliases == old(aliases)
        case CreateAliasRejected =>
          && r == Err(AliasCreationFailed(AliasName(tenant)))
          && old(nextKeyId) !in old(keys)
          && keys == old(keys)[old(nextKeyId) := tenant] && aliases == old(aliases)
        case Created =>
          && r == Ok(KeyIdRef(old(nextKeyId)))
          && old(nextKeyId) !in old(keys)
          && keys == old(keys)[old(nextKeyId) := tenant]
          && aliases == old(aliases)[AliasName(tenant) := old(nextKeyId)]
      ensures r.Ok? ==> AliasName(tenant) in aliases && keys[aliases[AliasName(tenant)]] == tenant
      ensures |keys| <= |old(keys)| + 1
      ensures forall id :: id in old(keys) ==> id in keys && keys[id] == old(keys)[id]
    {
      var alias := AliasName(tenant);
      if alias in aliases {
        return Ok(AliasRef(alias));
      }
      if outcome == CreateKeyRejected {
        return Err(KeyCreationFailed(tenant));
      }
      var keyId := nextKeyId;
      keys := keys[keyId := tenant];
      nextKeyId := nextKeyId + 1;
      if outcome == CreateAliasRejected {
        return Err(AliasCreationFailed(alias));
      }
      aliases := aliases[alias := keyId];
      forall t | AliasName(t) in aliases
        ensures keys[aliases[AliasName(t)]] == t
      {
        if AliasName(t) == alias {
          AliasNameInjective(t, tenant);
        }
      }
      r := Ok(KeyIdRef(keyId));
    }

    /** Provisions the tenant's master key, then asks for a data key through the alias. The
        key service's random data key is the parameter `drawn`; the pair returned is the blob
        and the plaintext of that one response. */
    method GenerateDataKey(tenant: string, outcome: CreateOutcome, drawn: DataKey) returns (r: Result<DataKey>)
      requires Valid()
      modifies this
      ensures Valid()
      ensures r.Ok? <==> old(AliasName(tenant) in aliases) || outcome == Created
      ensures r.Ok? ==>
        && r.value == drawn
        && AliasName(tenant) in aliases && keys[aliases[AliasName(tenant)]] == tenant
        && issued == old(issued)[drawn.blob := Wrapped(aliases[AliasName(tenant)], drawn.plaintext)]
      ensures r.Err? ==> issued == old(issued) && aliases == old(aliases)
      ensures Provisioned(tenant, outcome)
      ensures |keys| <= |old(keys)| + 1
      ensures forall id :: id in old(keys) ==> id in keys && keys[id] == old(keys)[id]
    {
      var provisioned := CreateKeyForTenant(tenant, outcome);
      if provisioned.Err? {
        return Err(provisioned.error);
      }
      var keyId := aliases[AliasName(tenant)];
      issued := issued[drawn.blob := Wrapped(keyId, drawn.plaintext)];
      r := Ok(drawn);
    }

    /** `decrypt` of a data-key blob: the plaintext key of any blob this service issued, for
        whichever tenant presents it. */
    function DecryptDataKey(blob: bytes): (r: Result<bytes>)
      reads this
      ensures r.Ok? <==> blob in issued
      ensures r.Ok? ==> r.value == issued[blob].plaintext
    {
      if blob in issued then Ok(issued[blob].plaintext) else Err(InvalidCiphertext)
    }
  }
}

=== FILE: llm_service.dfy ===
/** The answer generator: an empty context is answered with a fixed sentence, otherwise the
    question and the context go into one FLAN-T5 prompt and the first generated text is the
    answer; any failure of generation gives a fixed error sentence instead. */
module Llm {
  import opened Common

  const InsufficientInformation: string := "I don't have enough information to answer that."
  const GenerationFailed: string := "Error generating answer."

  const QuestionTag: string := "question: "
  const ContextTag: string := " context: "

  /** The prompt given to the model. */
  function Prompt(question: string, context: string): (p: string)
    ensures StartsWith(p, QuestionTag)
    ensures |p| == |QuestionTag| + |question| + |ContextTag| + |context|
  {
    assert QuestionTag + question + ContextTag + context == QuestionTag + (question + ContextTag + context);
    QuestionTag + question + ContextTag + context
  }

  /** The prompt starts with the question tag, carries the question right after it and ends
      with the context tag followed by the context. */
  lemma PromptParts(question: string, context: string)
    ensures StartsWith(Prompt(question, context), QuestionTag)
    ensures Prompt(question, context)[|QuestionTag|..|QuestionTag| + |question|] == question
    ensures Prompt(question, context)[|Prompt(question, context)| - |context|..] == context
    ensures Prompt(question, context)[|QuestionTag| + |question|..|Prompt(question, context)| - |context|] == ContextTag
  {
    var p := Prompt(question, context);
    assert p == QuestionTag + (question + (ContextTag + context));
  }

  /** Two questions over one context give two different prompts, and so do two contexts for
      one question. */
  lemma PromptInjective(q1: string, c1: string, q2: string, c2: string)
    requires |q1| == |q2| || |c1| == |c2|
    requires Prompt(q1, c1) == Prompt(q2, c2)
    ensures q1 == q2 && c1 == c2
  {
    PromptParts(q1, c1);
    PromptParts(q2, c2);
  }

  /** `generate_answer`. The model is the parameter `generate`: for a prompt it yields the list
      of generated texts, or `None` when the pipeline raises. Indexing an empty list raises
      too, inside the same `try`. */
  function GenerateAnswer(generate: string -> Option<seq<string>>, context: string, question: string): (answer: string)
    ensures context == "" ==> answer == InsufficientInformation
    ensures context != "" ==>
      match generate(Prompt(question, context))
      case Some(outputs) => answer == (if |outputs| > 0 then outputs[0] else GenerationFailed)
      case None => answer == GenerationFailed
  {
    if context == "" then InsufficientInformation
    else match generate(Prompt(question, context))
      case None => GenerationFailed
      case Some(outputs) => if |outputs| == 0 then GenerationFailed else outputs[0]
  }
}

=== FILE: pii_service.dfy ===
/** The PII span splicer: given the entities the NER model found in a text, every person,
    organisation and location span is overwritten with its placeholder "<PER>", "<ORG>" or
    "<LOC>", working from the last span to the first. */
module Pii {
  import opened Sorting

  /** One entity of the NER output: the span [start, end) of the text and its group. */
  datatype Entity = Entity(start: nat, end: nat, group: string)

  /** The groups that are redacted; entities of every other group are left alone. */
  predicate Redactable(e: Entity) {
    e.group == "PER" || e.group == "ORG" || e.group == "LOC"
  }

  function Placeholder(group: string): string {
    "<" + group + ">"
  }

  function StartKey(e: Entity): real {
    e.start as real
  }

  /** The entities in the order the splicing loop visits them: by descending start, entities
      with equal starts keeping their order, as Python's stable `sort(reverse=True)` leaves them. */
  function VisitOrder(entities: seq<Entity>): seq<Entity> {
    SortDesc(entities, StartKey)
  }

  /** Python's `chars[start:end] = replacement` on a list: the bounds are clamped to the list,
      and an end before the start inserts at the start. */
  function SliceAssign(chars: string, start: nat, end: nat, replacement: string): (r: string)
    ensures start <= end <= |chars| ==> r == chars[..start] + replacement + chars[end..]
  {
    var lo := if start < |chars| then start else |chars|;
    var hi := if end < lo then lo else if end < |chars| then end else |chars|;
    chars[..lo] + replacement + chars[hi..]
  }

  /** One iteration of the splicing loop. */
  function Splice(chars: string, e: Entity): string {
    if Redactable(e) then SliceAssign(chars, e.start, e.end, Placeholder(e.group)) else chars
  }

  /** The splicing loop run over `entities` in the order given. */
  function SpliceAll(chars: string, entities: seq<Entity>): string
    decreases |entities|
  {
    if |entities| == 0 then chars else SpliceAll(Splice(chars, entities[0]), entities[1..])
  }

  /** What `scrub` returns for a text and the NER output for it. */
  function Scrubbed(text: string, entities: seq<Entity>): (s: string)
    ensures s == "" <==> text == ""
  {
    if text == "" then ""
    else
      SpliceAllNonEmpty(text, VisitOrder(entities));
      SpliceAll(text, VisitOrder(entities))
  }

  /** A placeholder is never empty, so splicing never empties a non-empty text. */
  lemma {:induction false} SpliceAllNonEmpty(chars: string, entities: seq<Entity>)
    requires |chars| > 0
    ensures |SpliceAll(chars, entities)| > 0
    decreases |entities|
  {
    if |entities| > 0 {
      SpliceAllNonEmpty(Splice(chars, entities[0]), entities[1..]);
    }
  }

  /** `scrub`: the empty text is returned at once; otherwise the entities are sorted by
      descending start and each redactable span of the character list is overwritten. */
  method Scrub(text: string, entities: seq<Entity>) returns (scrubbed: string)
    ensures text == "" ==> scrubbed == ""
    ensures scrubbed == Scrubbed(text, entities)
  {
    if text == "" {
      return "";
    }
    var results := VisitOrder(entities);
    var chars := text;
    var i := 0;
    while i < |results|
      invariant 0 <= i <= |results|
      invariant SpliceAll(chars, results[i..]) == SpliceAll(text, results)
    {
      var entity := results[i];
      if Redactable(entity) {
        chars := SliceAssign(chars, entity.start, entity.end, Placeholder(entity.group));
      }
      assert results[i..][1..] == results[i + 1..];
      i := i + 1;
    }
    scrubbed := chars;
  }

  // Entities of other groups change nothing.

  lemma {:induction false} SpliceAllRedactable(chars: string, entities: seq<Entity>)
    ensures SpliceAll(chars, entities) == SpliceAll(chars, Filter(entities, Redactable))
    decreases |entities|
  {
    if |entities| > 0 {
      SpliceAllRedactable(Splice(chars, entities[0]), entities[1..]);
      if !Redactable(entities[0]) {
        SpliceAllRedactable(chars, entities[1..]);
      }
    }
  }

  /** Only the redactable entities matter: dropping all others gives the same output. */
  lemma OtherGroupsIgnored(text: string, entities: seq<Entity>)
    ensures Scrubbed(text, entities) == Scrubbed(text, Filter(entities, Redactable))
  {
    if text != "" {
      SpliceAllRedactable(text, VisitOrder(entities));
      FilterSortDesc(entities, Redactable, StartKey);
      SpliceAllRedactable(text, VisitOrder(Filter(entities, Redactable)));
      FilterIdempotent(VisitOrder(Filter(entities, Redactable)));
    }
  }

  lemma {:induction false} FilterIdempotent(entities: seq<Entity>)
    requires forall k :: 0 <= k < |entities| ==> Redactable(entities[k])
    ensures Filter(entities, Redactable) == entities
    decreases |entities|
  {
    if |entities| > 0 {
      FilterIdempotent(entities[1..]);
      assert entities == [entities[0]] + entities[1..];
    }
  }

  /** With no person, organisation or location among the entities, the text comes back unchanged. */
  lemma NothingToRedact(text: string, entities: seq<Entity>)
    requires forall k :: 0 <= k < |entities| ==> !Redactable(entities[k])
    ensures Scrubbed(text, entities) == text
  {
    OtherGroupsIgnored(text, entities);
    assert Filter(entities, Redactable) == [];
  }

  // Splicing from the last span to the first is splicing every span at its original place.

  /** The spans, visited last first, each end no later than the previous one's start and the
      first one visited ends within `bound`. */
  predicate Descending(spans: seq<Entity>, bound: nat)
    decreases |spans|
  {
    |spans| == 0 ||
    (spans[0].start <= spans[0].end <= bound && Descending(spans[1..], spans[0].start))
  }

  lemma {:induction false} DescendingWeaken(spans: seq<Entity>, bound: nat, larger: nat)
    requires Descending(spans, bound) && bound <= larger
    ensures Descending(spans, larger)
  {
  }

  /** The reference: each span cut out of the ORIGINAL text and replaced by its placeholder. */
  function Redacted(text: string, spans: seq<Entity>): string
    requires Descending(spans, |text|)
    decreases |spans|
  {
    if |spans| == 0 then text
    else Redacted(text[..spans[0].start], spans[1..]) + Placeholder(spans[0].group) + text[spans[0].end..]
  }

  /** Text after the bound of the splices is carried along untouched. */
  lemma {:induction false} SpliceAllSuffix(a: string, b: string, spans: seq<Entity>, bound: nat)
    requires Descending(spans, bound) && bound <= |a|
    ensures SpliceAll(a + b, spans) == SpliceAll(a, spans) + b
    decreases |spans|
  {
    if |spans| > 0 {
      var e := spans[0];
      assert (a + b)[..e.start] == a[..e.start];
      assert (a + b)[e.end..] == a[e.end..] + b;
      assert Splice(a + b, e) == Splice(a, e) + b;
      if Redactable(e) {
        assert |Splice(a, e)| >= e.start;
      }
      DescendingWeaken(spans[1..], e.start, |Splice(a, e)|);
      SpliceAllSuffix(Splice(a, e), b, spans[1..], |Splice(a, e)|);
    }
  }

  /** For in-bounds, non-overlapping redactable spans in visiting order, the loop's in-place
      edits never shift a span still to come. */
  lemma {:induction false} SpliceAllIsRedacted(text: string, spans: seq<Entity>)
    requires Descending(spans, |text|)
    requires forall k :: 0 <= k < |spans| ==> Redactable(spans[k])
    ensures SpliceAll(text, spans) == Redacted(text, spans)
    decreases |spans|
  {
    if |spans| > 0 {
      var e := spans[0];
      var a := text[..e.start];
      var b := Placeholder(e.group) + text[e.end..];
      assert Splice(text, e) == a + b;
      SpliceAllSuffix(a, b, spans[1..], e.start);
      SpliceAllIsRedacted(a, spans[1..]);
    }
  }

  /** A redactable entity lies within the first `n` characters and covers at least one. */
  predicate Within(e: Entity, n: nat) {
    Redactable(e) ==> e.start < e.end <= n
  }

  /** Two redactable entities share no character. */
  predicate Apart(x: Entity, y: Entity) {
    Redactable(x) && Redactable(y) ==> x.end <= y.start || y.end <= x.start
  }

  /** The NER output the splicer is meant for: its redactable spans are non-empty, within the
      text, and pairwise disjoint. */
  ghost predicate Disjoint(text: string, entities: seq<Entity>) {
    (forall e :: e in entities ==> Within(e, |text|)) && Pairwise(entities, Apart)
  }

  lemma {:induction false} SortedApartDescending(spans: seq<Entity>, bound: nat)
    requires SortedDesc(spans, StartKey) && Pairwise(spans, Apart)
    requires forall k :: 0 <= k < |spans| ==> Redactable(spans[k]) && Within(spans[k], bound)
    ensures Descending(spans, bound)
    decreases |spans|
  {
    if |spans| > 0 {
      var tail := spans[1..];
      forall k | 0 <= k < |tail| ensures Redactable(tail[k]) && Within(tail[k], spans[0].start) {
        assert tail[k] == spans[k + 1];
        assert StartKey(spans[0]) >= StartKey(spans[k + 1]);
        assert Apart(spans[0], spans[k + 1]);
      }
      assert SortedDesc(tail, StartKey) && Pairwise(tail, Apart) by {
        forall i, j | 0 <= i < j < |tail| ensures StartKey(tail[i]) >= StartKey(tail[j]) && Apart(tail[i], tail[j]) {
          assert tail[i] == spans[i + 1] && tail[j] == spans[j + 1];
        }
      }
      SortedApartDescending(tail, spans[0].start);
    }
  }

  lemma FilterWithin(entities: seq<Entity>, n: nat)
    requires forall e :: e in entities ==> Within(e, n)
    ensures forall k :: 0 <= k < |Filter(VisitOrder(entities), Redactable)| ==>
      Redactable(Filter(VisitOrder(entities), Redactable)[k]) && Within(Filter(VisitOrder(entities), Redactable)[k], n)
  {
    var sorted := VisitOrder(entities);
    var spans := Filter(sorted, Redactable);
    forall k | 0 <= k < |spans| ensures Redactable(spans[k]) && Within(spans[k], n) {
      assert spans[k] in sorted;
      assert spans[k] in multiset(sorted);
    }
  }

  /** The redactable spans, in visiting order, of a NER output its splicer is meant for. */
  lemma VisitedSpansDescending(text: string, entities: seq<Entity>)
    requires Disjoint(text, entities)
    ensures Descending(Filter(VisitOrder(entities), Redactable), |text|)
  {
    SortPairwise(entities, StartKey, Apart);
    FilterPairwise(VisitOrder(entities), Redactable, Apart);
    FilterSorted(VisitOrder(entities), Redactable, StartKey);
    FilterWithin(entities, |text|);
    SortedApartDescending(Filter(VisitOrder(entities), Redactable), |text|);
  }

  /** The main property of the splicer: for disjoint in-bounds spans, visiting them last first
      gives exactly the text with every span replaced at its original place. */
  lemma ScrubbedIsRedacted(text: string, entities: seq<Entity>)
    requires text != ""
    requires Disjoint(text, entities)
    ensures Descending(Filter(VisitOrder(entities), Redactable), |text|)
    ensures Scrubbed(text, entities) == Redacted(text, Filter(VisitOrder(entities), Redactable))
  {
    VisitedSpansDescending(text, entities);
    SpliceAllRedactable(text, VisitOrder(entities));
    SpliceAllIsRedacted(text, Filter(VisitOrder(entities), Redactable));
  }

  // What the reference keeps of the original text, and its length.

  function RemovedLength(spans: seq<Entity>): int
    decreases |spans|
  {
    if |spans| == 0 then 0 else (spans[0].end - spans[0].start) + RemovedLength(spans[1..])
  }

  function InsertedLength(spans: seq<Entity>): nat
    decreases |spans|
  {
    if |spans| == 0 then 0 else |Placeholder(spans[0].group)| + InsertedLength(spans[1..])
  }

  /** The output is as long as the input, less the spans, plus the placeholders. */
  lemma {:induction false} RedactedLength(text: string, spans: seq<Entity>)
    requires Descending(spans, |text|)
    ensures |Redacted(text, spans)| == |text| - RemovedLength(spans) + InsertedLength(spans)
    decreases |spans|
  {
    if |spans| > 0 {
      RedactedLength(text[..spans[0].start], spans[1..]);
    }
  }

  /** The text before the first span and after the last span is kept as it was. */
  lemma {:induction false} RedactedKeepsEnds(text: string, spans: seq<Entity>)
    requires Descending(spans, |text|) && |spans| > 0
    ensures spans[|spans| - 1].start <= |text|
    ensures var first := spans[|spans| - 1].start;
      first <= |Redacted(text, spans)| && Redacted(text, spans)[..first] == text[..first]
    ensures var last := spans[0].end;
      |text| - last <= |Redacted(text, spans)| &&
      Redacted(text, spans)[|Redacted(text, spans)| - (|text| - last)..] == text[last..]
    decreases |spans|
  {
    var e := spans[0];
    var head := text[..e.start];
    var tail := text[e.end..];
    var inner := Redacted(head, spans[1..]);
    var r := Redacted(text, spans);
    assert r == inner + Placeholder(e.group) + tail;
    if |spans| > 1 {
      RedactedKeepsEnds(head, spans[1..]);
      var first := spans[|spans| - 1].start;
      assert spans[1..][|spans[1..]| - 1] == spans[|spans| - 1];
      assert inner[..first] == head[..first] == text[..first];
      assert r[..first] == inner[..first];
    } else {
      assert inner == head;
      assert r[..e.start] == head;
    }
    assert r[|r| - |tail|..] == tail;
  }
}

=== FILE: sorting.dfy ===
/** A stable descending sort by a key, as Python's `list.sort(key=..., reverse=True)` performs it,
    and Python's filtering comprehension; both the PII splicer (entities by start offset) and the
    vector search (points by similarity score) rank with it. */
module Sorting {

  ghost predicate SortedDesc<T>(s: seq<T>, key: T -> real) {
    forall i, j :: 0 <= i < j < |s| ==> key(s[i]) >= key(s[j])
  }

  /** `rel` holds between every element and each element after it. */
  ghost predicate Pairwise<T>(s: seq<T>, rel: (T, T) -> bool) {
    forall i, j :: 0 <= i < j < |s| ==> rel(s[i], s[j])
  }

  /** Places `x` in front of the first element whose key is not larger than its own, so that
      `x`, which came earlier in the input, stays ahead of the elements with an equal key. */
  function Insert<T>(x: T, s: seq<T>, key: T -> real): (r: seq<T>)
    ensures multiset(r) == multiset(s) + multiset{x}
    ensures |r| == |s| + 1
    decreases |s|
  {
    if |s| == 0 then [x]
    else if key(x) >= key(s[0]) then [x] + s
    else
      assert s == [s[0]] + s[1..];
      [s[0]] + Insert(x, s[1..], key)
  }

  /** An element of `Insert(x, s, key)` is `x` or an element of `s`. */
  lemma InsertMember<T>(x: T, s: seq<T>, key: T -> real, y: T)
    requires y in Insert(x, s, key)
    ensures y == x || y in s
  {
    assert y in multiset(Insert(x, s, key));
  }

  lemma {:induction false} InsertSorted<T>(x: T, s: seq<T>, key: T -> real)
    requires SortedDesc(s, key)
    ensures SortedDesc(Insert(x, s, key), key)
    decreases |s|
  {
    if |s| > 0 && key(x) < key(s[0]) {
      InsertSorted(x, s[1..], key);
      var tail := Insert(x, s[1..], key);
      forall k | 0 <= k < |tail| ensures key(s[0]) >= key(tail[k]) {
        InsertMember(x, s[1..], key, tail[k]);
        if tail[k] != x {
          var m :| 0 <= m < |s[1..]| && s[1..][m] == tail[k];
          assert s[m + 1] == tail[k];
        }
      }
    }
  }

  /** Insertion sort: a permutation of the input, in descending key order. */
  function SortDesc<T>(s: seq<T>, key: T -> real): (r: seq<T>)
    ensures multiset(r) == multiset(s)
    ensures |r| == |s|
    ensures SortedDesc(r, key)
    decreases |s|
  {
    if |s| == 0 then []
    else
      assert s == [s[0]] + s[1..];
      InsertSorted(s[0], SortDesc(s[1..], key), key);
      Insert(s[0], SortDesc(s[1..], key), key)
  }

  /** The sort is stable: elements whose keys are all equal keep their input order. */
  lemma {:induction false} SortDescStable<T>(s: seq<T>, key: T -> real)
    requires forall i, j :: 0 <= i < |s| && 0 <= j < |s| ==> key(s[i]) == key(s[j])
    ensures SortDesc(s, key) == s
    decreases |s|
  {
    if |s| > 0 {
      SortDescStable(s[1..], key);
      assert s == [s[0]] + s[1..];
    }
  }

  /** A prefix holds no element more often than the whole sequence does. */
  lemma PrefixSubMultiset<T>(s: seq<T>, n: nat)
    requires n <= |s|
    ensures multiset(s[..n]) <= multiset(s)
  {
    assert s == s[..n] + s[n..];
  }

  /** Python `[x for x in s if p(x)]`. */
  function Filter<T>(s: seq<T>, p: T -> bool): (r: seq<T>)
    ensures |r| <= |s|
    ensures forall k :: 0 <= k < |r| ==> r[k] in s && p(r[k])
    ensures forall k :: 0 <= k < |s| && p(s[k]) ==> s[k] in r
    decreases |s|
  {
    if |s| == 0 then []
    else
      assert s == [s[0]] + s[1..];
      if p(s[0]) then [s[0]] + Filter(s[1..], p) else Filter(s[1..], p)
  }

  /** A filter keeps every copy of a selected element and no copy of any other. */
  lemma {:induction false} FilterCount<T>(s: seq<T>, p: T -> bool, x: T)
    ensures multiset(Filter(s, p))[x] == if p(x) then multiset(s)[x] else 0
    decreases |s|
  {
    if |s| > 0 {
      assert s == [s[0]] + s[1..];
      FilterCount(s[1..], p, x);
    }
  }

  /** Filtering a concatenation filters each part. */
  lemma {:induction false} FilterAppend<T>(a: seq<T>, b: seq<T>, p: T -> bool)
    ensures Filter(a + b, p) == Filter(a, p) + Filter(b, p)
    decreases |a|
  {
    if |a| > 0 {
      assert (a + b)[0] == a[0];
      assert (a + b)[1..] == a[1..] + b;
      FilterAppend(a[1..], b, p);
      if p(a[0]) {
        assert [a[0]] + (Filter(a[1..], p) + Filter(b, p)) == ([a[0]] + Filter(a[1..], p)) + Filter(b, p);
      }
    } else {
      assert a + b == b;
    }
  }

  lemma {:induction false} FilterSorted<T>(s: seq<T>, p: T -> bool, key: T -> real)
    requires SortedDesc(s, key)
    ensures SortedDesc(Filter(s, p), key)
    decreases |s|
  {
    if |s| > 0 {
      FilterSorted(s[1..], p, key);
      var f := Filter(s[1..], p);
      forall y | y in f ensures key(s[0]) >= key(y) {
        var k :| 0 <= k < |s[1..]| && s[1..][k] == y;
        assert s[k + 1] == y;
      }
    }
  }

  lemma {:induction false} FilterPairwise<T>(s: seq<T>, p: T -> bool, rel: (T, T) -> bool)
    requires Pairwise(s, rel)
    ensures Pairwise(Filter(s, p), rel)
    decreases |s|
  {
    if |s| > 0 {
      FilterPairwise(s[1..], p, rel);
      var f := Filter(s[1..], p);
      forall y | y in f ensures rel(s[0], y) {
        var k :| 0 <= k < |s[1..]| && s[1..][k] == y;
        assert s[k + 1] == y;
      }
    }
  }

  /** Inserting an element whose key is at least that of the head of a sorted list puts it
      in front. */
  lemma InsertFront<T>(x: T, s: seq<T>, key: T -> real)
    requires |s| == 0 || key(x) >= key(s[0])
    ensures Insert(x, s, key) == [x] + s
  {
  }

  /** The first element kept by a filter of a sorted list has a key no larger than the head. */
  lemma FilterHead<T>(s: seq<T>, p: T -> bool, key: T -> real)
    requires SortedDesc(s, key) && |Filter(s, p)| > 0
    ensures key(s[0]) >= key(Filter(s, p)[0])
  {
    var f := Filter(s, p);
    assert f[0] in s;
  }

  /** Filtering commutes with inserting into a sorted sequence. */
  lemma {:induction false} FilterInsert<T>(x: T, s: seq<T>, p: T -> bool, key: T -> real)
    requires SortedDesc(s, key)
    ensures Filter(Insert(x, s, key), p) == if p(x) then Insert(x, Filter(s, p), key) else Filter(s, p)
    decreases |s|
  {
    if |s| == 0 {
    } else if key(x) >= key(s[0]) {
      InsertFront(x, s, key);
      assert ([x] + s)[1..] == s;
      if p(x) && |Filter(s, p)| > 0 {
        FilterHead(s, p, key);
        InsertFront(x, Filter(s, p), key);
      }
    } else {
      FilterInsert(x, s[1..], p, key);
    }
  }


  /** Filtering a sorted sequence gives the same as sorting the filtered input: both keep the
      selected elements in their stable descending order. */
  lemma {:induction false} FilterSortDesc<T>(s: seq<T>, p: T -> bool, key: T -> real)
    ensures Filter(SortDesc(s, key), p) == SortDesc(Filter(s, p), key)
    decreases |s|
  {
    if |s| > 0 {
      FilterSortDesc(s[1..], p, key);
      FilterInsert(s[0], SortDesc(s[1..], key), p, key);
    }
  }

  /** Selects the elements whose key is `c`. */
  function KeyIs<T>(key: T -> real, c: real): T -> bool {
    x => key(x) == c
  }

  /** The sort is stable: the elements of any one key come out in their input order. */
  lemma SortDescKeepsTies<T>(s: seq<T>, key: T -> real, c: real)
    ensures Filter(SortDesc(s, key), KeyIs(key, c)) == Filter(s, KeyIs(key, c))
  {
    var ties := Filter(s, KeyIs(key, c));
    FilterSortDesc(s, KeyIs(key, c), key);
    SortDescStable(ties, key);
  }

  lemma {:induction false} InsertPairwise<T>(x: T, s: seq<T>, key: T -> real, rel: (T, T) -> bool)
    requires forall a, b :: rel(a, b) == rel(b, a)
    requires Pairwise(s, rel)
    requires forall y :: y in s ==> rel(x, y)
    ensures Pairwise(Insert(x, s, key), rel)
    decreases |s|
  {
    if |s| > 0 && key(x) < key(s[0]) {
      InsertPairwise(x, s[1..], key, rel);
      var tail := Insert(x, s[1..], key);
      forall y | y in tail ensures rel(s[0], y) {
        assert y in multiset(tail);
        if y == x {
          assert rel(x, s[0]);
        } else {
          var k :| 0 <= k < |s[1..]| && s[1..][k] == y;
          assert s[k + 1] == y;
        }
      }
    }
  }

  /** Sorting keeps a symmetric relation that held between every two elements. */
  lemma {:induction false} SortPairwise<T>(s: seq<T>, key: T -> real, rel: (T, T) -> bool)
    requires forall a, b :: rel(a, b) == rel(b, a)
    requires Pairwise(s, rel)
    ensures Pairwise(SortDesc(s, key), rel)
    decreases |s|
  {
    if |s| > 0 {
      SortPairwise(s[1..], key, rel);
      var sorted := SortDesc(s[1..], key);
      forall y | y in sorted ensures rel(s[0], y) {
        assert y in multiset(sorted);
        assert y in multiset(s[1..]);
        var k :| 0 <= k < |s[1..]| && s[1..][k] == y;
        assert s[k + 1] == y;
      }
      InsertPairwise(s[0], sorted, key, rel);
    }
  }
}

=== FILE: storage_service.dfy ===
/** The S3 object store client: one bucket, fixed when the client is built, modelled as a map
    from object key to object body. */
module Storage {
  import opened Common

  /** The bucket the deployment is configured with. */
  const DefaultBucket: string := "secure-rag-data"

  /** The URI `upload_file` hands back for an object. */
  function S3Uri(bucket: string, fileKey: string): (u: string)
    ensures StartsWith(u, "s3://") && |u| == |bucket| + |fileKey| + 6
  {
    assert "s3://" + bucket + "/" + fileKey == "s3://" + (bucket + "/" + fileKey);
    "s3://" + bucket + "/" + fileKey
  }

  /** The part of every such URI that precedes the object key. */
  function UriPrefix(bucket: string): (p: string)
    ensures |p| > 0
  {
    "s3://" + bucket + "/"
  }

  /** A URI is its bucket's prefix followed by the key, so it names the bucket and the key. */
  lemma S3UriParts(bucket: string, fileKey: string)
    ensures S3Uri(bucket, fileKey) == UriPrefix(bucket) + fileKey
    ensures StartsWith(S3Uri(bucket, fileKey), "s3://")
    ensures S3Uri(bucket, fileKey)[|UriPrefix(bucket)|..] == fileKey
  {
    assert S3Uri(bucket, fileKey) == "s3://" + (bucket + "/" + fileKey);
  }

  /** Two URIs of one bucket are equal only for the same key. */
  lemma S3UriInjective(bucket: string, k1: string, k2: string)
    requires S3Uri(bucket, k1) == S3Uri(bucket, k2)
    ensures k1 == k2
  {
    S3UriParts(bucket, k1);
    S3UriParts(bucket, k2);
  }

  class StorageService {
    const bucket: string
    var objects: map<string, bytes>

    constructor (bucket: string)
      ensures this.bucket == bucket && objects == map[]
    {
      this.bucket := bucket;
      objects := map[];
    }

    /** `put_object` into the bucket, then the URI of the new object. */
    method UploadFile(fileKey: string, content: bytes) returns (uri: string)
      modifies this
      ensures objects == old(objects)[fileKey := content]
      ensures uri == S3Uri(bucket, fileKey)
      ensures DownloadFile(fileKey) == Ok(content)
      ensures forall k :: k != fileKey ==> DownloadFile(k) == old(DownloadFile(k))
    {
      objects := objects[fileKey := content];
      uri := "s3://" + bucket + "/" + fileKey;
    }

    /** `get_object` from the bucket: the stored body, or NoSuchKey for a key never uploaded. */
    function DownloadFile(fileKey: string): (r: Result<bytes>)
      reads this
      ensures r.Ok? <==> fileKey in objects
      ensures r.Ok? ==> r.value == objects[fileKey]
      ensures r.Err? ==> r.error == NoSuchKey(fileKey)
    {
      if fileKey in objects then Ok(objects[fileKey]) else Err(NoSuchKey(fileKey))
    }
  }
}

=== FILE: vector_service.dfy ===
/** The tenant-partitioned vector index (a Qdrant client): one collection per tenant, named
    "tenant_" + tenant id, holding points whose payload points at the encrypted document and
    carries its wrapped data key in hexadecimal. */
module Vectors {
  import opened Common
  import opened Sorting
  import opened Base16

  const CollectionPrefix: string := "tenant_"

  /** The number of results `search` returns when its caller gives no limit. */
  const DefaultLimit: nat := 3

  datatype Payload = Payload(s3Uri: string, encryptedDekHex: string)

  datatype Point = Point(id: nat, vector: Embedding, payload: Payload)

  datatype ScoredPoint = ScoredPoint(point: Point, score: real)

  /** The name of a tenant's collection. */
  function CollectionName(tenant: string): (n: string)
    ensures StartsWith(n, CollectionPrefix) && n[|CollectionPrefix|..] == tenant
  {
    CollectionPrefix + tenant
  }

  /** Different tenants never share a collection. */
  lemma CollectionNameInjective(t1: string, t2: string)
    requires CollectionName(t1) == CollectionName(t2)
    ensures t1 == t2
  {
    assert t1 == CollectionName(t1)[|CollectionPrefix|..];
    assert t2 == CollectionName(t2)[|CollectionPrefix|..];
  }

  /** The collection list after a check-then-create of `name`. */
  function WithName(names: seq<string>, name: string): (r: seq<string>)
    ensures name in r
  {
    if name in names then names else names + [name]
  }

  function ScoreKey(sp: ScoredPoint): real {
    sp.score
  }

  /** Every point with its similarity to the query. */
  function Scored(points: seq<Point>, query: Embedding, similarity: (Embedding, Embedding) -> real): (r: seq<ScoredPoint>)
    ensures |r| == |points|
    ensures forall k :: 0 <= k < |r| ==> r[k] == ScoredPoint(points[k], similarity(points[k].vector, query))
  {
    seq(|points|, k requires 0 <= k < |points| => ScoredPoint(points[k], similarity(points[k].vector, query)))
  }

  /** The similarity ranking of the whole collection, best first, ties in insertion order. */
  function Ranked(points: seq<Point>, query: Embedding, similarity: (Embedding, Embedding) -> real): seq<ScoredPoint> {
    SortDesc(Scored(points, query, similarity), ScoreKey)
  }

  /** An exhaustive nearest-neighbour search: the `limit` best-scoring points of a collection,
      each drawn from that collection with its own score, best first. */
  function TopK(points: seq<Point>, query: Embedding, limit: nat, similarity: (Embedding, Embedding) -> real): (r: seq<ScoredPoint>)
    ensures |r| == if limit < |points| then limit else |points|
    ensures forall k :: 0 <= k < |r| ==> r[k].point in points && r[k].score == similarity(r[k].point.vector, query)
    ensures SortedDesc(r, ScoreKey)
  {
    var ranked := Ranked(points, query, similarity);
    var n := if limit < |points| then limit else |points|;
    var r := ranked[..n];
    forall k | 0 <= k < |r|
      ensures r[k].point in points && r[k].score == similarity(r[k].point.vector, query)
    {
      var scored := Scored(points, query, similarity);
      assert r[k] == ranked[k];
      assert ranked[k] in multiset(scored);
      var j :| 0 <= j < |scored| && scored[j] == r[k];
    }
    r
  }

  /** The search returns no point more often than the collection holds it: its hits are a
      sub-multiset of the scored collection, so distinct points of the collection stay distinct. */
  lemma TopKDistinct(points: seq<Point>, query: Embedding, limit: nat, similarity: (Embedding, Embedding) -> real)
    ensures multiset(TopK(points, query, limit, similarity)) <= multiset(Scored(points, query, similarity))
  {
    var ranked := Ranked(points, query, similarity);
    var n := if limit < |points| then limit else |points|;
    assert TopK(points, query, limit, similarity) == ranked[..n];
    PrefixSubMultiset(ranked, n);
  }

  /** No point the search leaves out scores higher than a point it returns. */
  lemma TopKBest(points: seq<Point>, query: Embedding, limit: nat, similarity: (Embedding, Embedding) -> real, p: Point)
    requires p in points
    requires ScoredPoint(p, similarity(p.vector, query)) !in TopK(points, query, limit, similarity)
    ensures forall sp :: sp in TopK(points, query, limit, similarity) ==> sp.score >= similarity(p.vector, query)
  {
    var scored := Scored(points, query, similarity);
    var ranked := Ranked(points, query, similarity);
    var sp0 := ScoredPoint(p, similarity(p.vector, query));
    var j :| 0 <= j < |points| && points[j] == p;
    assert scored[j] == sp0;
    assert sp0 in multiset(ranked);
    var i :| 0 <= i < |ranked| && ranked[i] == sp0;
    var r := TopK(points, query, limit, similarity);
    assert r == ranked[..|r|];
    assert i >= |r|;
    forall sp | sp in r ensures sp.score >= sp0.score {
      var k :| 0 <= k < |r| && r[k] == sp;
      assert ScoreKey(ranked[k]) >= ScoreKey(ranked[i]);
    }
  }

  // Recovering a tenant id from a collection name.

  function IsTenantCollection(name: string): bool {
    StartsWith(name, CollectionPrefix)
  }

  /** The tenant id in a collection name: what follows the prefix. */
  function TenantIdOf(name: string): string
    requires IsTenantCollection(name)
  {
    name[|CollectionPrefix|..]
  }

  /** The tenant id as `list_tenants` computes it: every "tenant_" in the name deleted. */
  function TenantIdAsWritten(name: string): (t: string)
    ensures |t| <= |name|
    ensures !Contains(name, CollectionPrefix) ==> t == name
    ensures Contains(name, CollectionPrefix) ==> |t| < |name|
  {
    if Contains(name, CollectionPrefix) then
      ReplaceAllDeletes(name, CollectionPrefix);
      ReplaceAll(name, CollectionPrefix, "")
    else
      ReplaceAll(name, CollectionPrefix, "")
  }

  /** Every tenant id comes back from its collection name. */
  lemma TenantIdRoundTrip(tenant: string)
    ensures IsTenantCollection(CollectionName(tenant)) && TenantIdOf(CollectionName(tenant)) == tenant
  {
    assert CollectionName(tenant)[..|CollectionPrefix|] == CollectionPrefix;
  }

  /** Deleting every "tenant_" gives the tenant id back exactly when the id holds no "tenant_". */
  lemma TenantIdAsWrittenRoundTrip(tenant: string)
    ensures TenantIdAsWritten(CollectionName(tenant)) == tenant <==> !Contains(tenant, CollectionPrefix)
  {
    StripRoundTrip(CollectionPrefix, tenant);
  }

  /** The tenant "my_tenant_1" is listed as "my_1". */
  lemma TenantIdAsWrittenMangles()
    ensures TenantIdAsWritten(CollectionName("my_" + CollectionPrefix + "1")) == "my_1"
  {
    var s0 := "1";
    ContainsShorter(s0, CollectionPrefix);
    var s1 := CollectionPrefix + s0;
    ReplaceAllLeading(CollectionPrefix, s0, "");
    var s2 := ['_'] + s1;
    ReplaceAllKeep('_', s1, CollectionPrefix, "");
    var s3 := ['y'] + s2;
    ReplaceAllKeep('y', s2, CollectionPrefix, "");
    var s4 := ['m'] + s3;
    ReplaceAllKeep('m', s3, CollectionPrefix, "");
    ReplaceAllLeading(CollectionPrefix, s4, "");
    assert s4 == "my_" + CollectionPrefix + "1";
  }

  /** The ids `list_tenants` returns for a list of collection names, in collection order. */
  function TenantsOf(names: seq<string>): (r: seq<string>)
    ensures |r| <= |names|
    decreases |names|
  {
    if |names| == 0 then []
    else
      var last := names[|names| - 1];
      TenantsOf(names[..|names| - 1]) + (if IsTenantCollection(last) then [TenantIdOf(last)] else [])
  }

  /** The same list as the code computes it, with `TenantIdAsWritten`. */
  function TenantsAsWritten(names: seq<string>): (r: seq<string>)
    ensures |r| <= |names|
    decreases |names|
  {
    if |names| == 0 then []
    else
      var last := names[|names| - 1];
      TenantsAsWritten(names[..|names| - 1]) + (if IsTenantCollection(last) then [TenantIdAsWritten(last)] else [])
  }

  function CollectionNames(tenants: seq<string>): (r: seq<string>)
    ensures |r| == |tenants|
    ensures forall k :: 0 <= k < |r| ==> r[k] == CollectionName(tenants[k])
  {
    seq(|tenants|, k requires 0 <= k < |tenants| => CollectionName(tenants[k]))
  }

  /** Listing the collections of a set of tenants gives back exactly those tenants, in order. */
  lemma {:induction false} TenantsOfCollections(tenants: seq<string>)
    ensures TenantsOf(CollectionNames(tenants)) == tenants
    decreases |tenants|
  {
    if |tenants| > 0 {
      var n := |tenants| - 1;
      assert CollectionNames(tenants)[..n] == CollectionNames(tenants[..n]);
      TenantsOfCollections(tenants[..n]);
      TenantIdRoundTrip(tenants[n]);
      assert tenants == tenants[..n] + [tenants[n]];
    }
  }

  /** The code's list agrees with `TenantsOf` exactly when no tenant id holds "tenant_". */
  lemma {:induction false} TenantsAsWrittenAgree(tenants: seq<string>)
    ensures TenantsAsWritten(CollectionNames(tenants)) == tenants <==>
      forall k :: 0 <= k < |tenants| ==> !Contains(tenants[k], CollectionPrefix)
    decreases |tenants|
  {
    if |tenants| > 0 {
      var n := |tenants| - 1;
      assert CollectionNames(tenants)[..n] == CollectionNames(tenants[..n]);
      TenantsAsWrittenAgree(tenants[..n]);
      TenantIdRoundTrip(tenants[n]);
      TenantIdAsWrittenRoundTrip(tenants[n]);
      TenantsAsWrittenLength(CollectionNames(tenants[..n]));
      var prefix := TenantsAsWritten(CollectionNames(tenants[..n]));
      var whole := TenantsAsWritten(CollectionNames(tenants));
      assert whole == prefix + [TenantIdAsWritten(CollectionName(tenants[n]))];
      if whole == tenants {
        assert prefix == whole[..n];
      }
      assert tenants == tenants[..n] + [tenants[n]];
    }
  }

  /** A tenant whose collection exists is listed under its own id, provided the id holds no
      "tenant_" for the code's `replace` to delete. */
  lemma {:induction false} TenantListed(names: seq<string>, tenant: string)
    requires CollectionName(tenant) in names
    requires !Contains(tenant, CollectionPrefix)
    ensures tenant in TenantsAsWritten(names)
    decreases |names|
  {
    var n := |names| - 1;
    if names[n] == CollectionName(tenant) {
      TenantIdRoundTrip(tenant);
      TenantIdAsWrittenRoundTrip(tenant);
    } else {
      assert CollectionName(tenant) in names[..n];
      TenantListed(names[..n], tenant);
    }
  }

  lemma {:induction false} TenantsAsWrittenLength(names: seq<string>)
    requires forall k :: 0 <= k < |names| ==> IsTenantCollection(names[k])
    ensures |TenantsAsWritten(names)| == |names|
    decreases |names|
  {
    if |names| > 0 {
      TenantsAsWrittenLength(names[..|names| - 1]);
    }
  }

  class VectorService {
    const embed: string -> Embedding                         // the sentence-transformer
    const similarity: (Embedding, Embedding) -> real         // the cosine similarity
    var names: seq<string>                                   // the collections, in listing order
    var collections: map<string, seq<Point>>
    var nextPointId: nat                                     // the source of fresh point ids

    ghost predicate Valid()
      reads this
    {
      && (forall i, j :: 0 <= i < j < |names| ==> names[i] != names[j])
      && (forall n :: n in collections <==> n in names)
      && (forall n, k :: n in collections && 0 <= k < |collections[n]| ==> collections[n][k].id < nextPointId)
    }

    constructor (embed: string -> Embedding, similarity: (Embedding, Embedding) -> real)
      ensures Valid()
      ensures this.embed == embed && this.similarity == similarity
      ensures names == [] && collections == map[]
    {
      this.embed := embed;
      this.similarity := similarity;
      names, collections, nextPointId := [], map[], 0;
    }

    /** The points of a collection; none for a collection that does not exist. */
    function Points(name: string): seq<Point>
      reads this
    {
      if name in collections then collections[name] else []
    }

    /** Creates the tenant's empty collection when no collection has its name; otherwise does
        nothing, so a second call never changes anything. */
    method EnsureCollection(tenant: string)
      requires Valid()
      modifies this
      ensures Valid()
      ensures names == WithName(old(names), CollectionName(tenant))
      ensures collections == old(collections)[CollectionName(tenant) := old(Points(CollectionName(tenant)))]
      ensures nextPointId == old(nextPointId)
    {
      var name := CollectionName(tenant);
      var present := name in names;
      if !present {
        names := names + [name];
        collections := collections[name := []];
      }
    }

    /** Stores one point in the tenant's own collection: a fresh id, the embedding of the text,
        and the payload {s3_uri, hex of the wrapped data key}. No other collection changes. */
    method UpsertVector(tenant: string, text: string, s3Uri: string, encryptedDek: bytes)
      returns (pointId: nat, vector: Embedding)
      requires Valid()
      modifies this
      ensures Valid()
      ensures vector == embed(text)
      ensures forall n, k :: n in old(collections) && 0 <= k < |old(collections)[n]| ==>
        old(collections)[n][k].id != pointId
      ensures names == WithName(old(names), CollectionName(tenant))
      ensures collections == old(collections)[CollectionName(tenant) :=
        old(Points(CollectionName(tenant))) + [Point(pointId, vector, Payload(s3Uri, Hex(encryptedDek)))]]
    {
      EnsureCollection(tenant);
      vector := embed(text);
      pointId := nextPointId;
      nextPointId := nextPointId + 1;
      var encryptedDekHex := Hex(encryptedDek);
      var name := CollectionName(tenant);
      collections := collections[name := collections[name] + [Point(pointId, vector, Payload(s3Uri, encryptedDekHex))]];
    }

    /** Ensures the tenant's collection, then searches it, and only it, for the query text. */
    method Search(tenant: string, queryText: string, limit: nat) returns (results: seq<ScoredPoint>, queryVector: Embedding)
      requires Valid()
      modifies this
      ensures Valid()
      ensures names == WithName(old(names), CollectionName(tenant))
      ensures collections == old(collections)[CollectionName(tenant) := old(Points(CollectionName(tenant)))]
      ensures nextPointId == old(nextPointId)
      ensures queryVector == embed(queryText)
      ensures results == TopK(Points(CollectionName(tenant)), queryVector, limit, similarity)
    {
      EnsureCollection(tenant);
      queryVector := embed(queryText);
      results := TopK(collections[CollectionName(tenant)], queryVector, limit, similarity);
    }

    /** The tenant ids of the collections named "tenant_...", in collection order. */
    method ListTenants() returns (tenants: seq<string>)
      ensures tenants == TenantsAsWritten(names)
    {
      tenants := [];
      var i := 0;
      while i < |names|
        invariant 0 <= i <= |names|
        invariant tenants == TenantsAsWritten(names[..i])
      {
        var name := names[i];
        assert names[..i + 1][..i] == names[..i];
        if IsTenantCollection(name) {
          tenants := tenants + [TenantIdAsWritten(name)];
        }
        i := i + 1;
      }
      assert names[..i] == names;
    }
  }
}
